=== FILE: README.md ===
# Amazon Q to OpenAI/Anthropic relay: a Dafny model of its core

The relay (`main.py`) accepts OpenAI-style `/v1/chat/completions` and
Anthropic-style `/v1/messages` requests. It reduces the conversation to the
text of the last user message and posts that text to Amazon Q's
`generateAssistantResponse` endpoint, authenticated with an OAuth access
token that it refreshes on demand. It then turns the AWS event-stream body
back into a chat completion, or into a stream of server-sent-event frames in
the caller's format.

This project models that core and proves properties of it:

- **Text** (`text.dfy`): the Python string operations the core relies on. These are `str.find`, `strip()`, `s[:n]`, `sep.join` and a splitter used to state that joins can be undone.
- **Scanning** (`scanning.dfy`): the brace/quote/escape state machine shared by both object scanners, with its step function and its behaviour on quoted string bodies.
- **Extractor** (`extractor.dfy`): `extract_json_from_buffer`. It is a method with the scanning loop, proved equal to a specification function, and that function is characterised by lemmas. `Drain` is the `while True` loop that empties a buffer of complete objects.
- **Decoding** (`decoding.dfy`): `json.loads` followed by `'content' in obj`, taken as a parameter. Its outcomes are not JSON, no `content` key, a `content` value, or a lookup that raises.
- **EventStream** (`event_stream.dfy`): `parse_event_stream` as a method over its character loop, proved equal to a fold, plus the non-streaming reply envelopes.
- **Messages** (`messages.dfy`): `messages_to_content`, and the decisions `_handle_chat_request` makes before calling upstream: the 400 on empty `messages`, the model default, the upstream model id and the stream flag.
- **Frames** (`frames.dfy`): `create_stream_chunk`, given as the kind of event each call produces, plus the `data: …\n\n` framing.
- **Streaming** (`streaming.dfy`): the `generate()` generator. It is a method over the chunk loop and the inner extraction loop, proved equal to a specification of every frame yielded.
- **Auth** (`auth.dfy`): `_refresh_access_token` and `get_access_token`, first as a state machine over the manager's fields, then as the `AmazonQAuthManager` class whose methods update those fields in place.
- **Client** (`client.dfy`): `send_message` with its retry-once-after-403 logic, and the `AmazonQClient` class that drives the manager's methods.

Clocks, uuids and the upstream I/O are parameters.
- Each token lookup sees two clock readings: `now`, for the expiry test of `get_access_token`, and `grantedAt`, taken after the token endpoint has answered and used for a granted token's expiry.
- Fresh conversation ids and hex ids are arguments.
- The chunks of the upstream body and the replies to the two POSTs are inputs.
- So is the Amazon Q CLI database lookup.
- JSON parsing is a decoder function supplied by the caller.
- `BUFFER_MAX_SIZE` is the parameter `cap`, with Python's semantics for `buffer[-cap:]`.
- `TOKEN_REFRESH_MARGIN` is the parameter `margin`.

Some details of the relay's behaviour are easy to assume otherwise; the model
follows the code of `main.py` on each of them:

- The stream flag is `data.get('stream', False)` read for truthiness. No query parameters or alternate body keys are consulted.
- The Anthropic stream ends with `message_delta`. No `message_stop` frame is sent.
- The OpenAI stream has no role-bearing start chunk. Its first frame is the first content fragment.
- `get_access_token` refreshes when the cached token is missing or empty, and also when the recorded expiry has passed.
- The Anthropic frames do not share one message id: `message_start` draws its own.

## Model

| member | source | states |
|---|---|---|
| Text.Find | main.py:344 | `str.find`: -1 exactly when the pattern occurs nowhere, otherwise its first occurrence |
| Text.Strip | main.py:440 | the stripped text is the middle of the input with only whitespace removed on either side; it is empty exactly when the input is all whitespace, and an input without whitespace at its ends is unchanged |
| Text.Take | main.py:469 | `s[:n]` is a prefix of `s` of length `min(n, len(s))` |
| Scanning.Step | main.py:356-371 | an escaped character only clears the escape; a backslash only sets it; quotes alone toggle the in-string flag; outside a string an opening brace raises the depth by one and a closing brace lowers it by one, and nothing else moves the depth |
| Scanning.QuotedBodyInert | main.py:360-365 | the body of a quoted string with escaped quotes and backslashes never changes the depth and leaves the scanner inside the string |
| Extractor.ExtractJsonFromBuffer | main.py:336-377 | with the pattern absent or the scan never closing, it returns nothing and the buffer; otherwise the span from the pattern to the closing brace and the tail after it, exactly the specification `Extract` |
| Extractor.ScanObject | main.py:349-377 | the character loop, run from the pattern's position, stops at the least position whose `}` brings the depth back to zero (`ObjectEnd`), and reports none when there is no such position |
| Extractor.ExtractCharacterised | main.py:344-377 | nothing is found exactly when the pattern is absent or no brace after it closes the object; otherwise the span starts at the first `{"content":`, ends at the first closing `}` that brings the depth back to zero, and span plus remainder is the buffer from that point on |
| Extractor.ExtractedObjectBalanced | main.py:349-374 | an extracted span is balanced: depth zero at its end and at least one at every proper prefix |
| Extractor.ExtractAppend | main.py:336-377 | once an object is complete, appending more input changes only the remainder |
| Extractor.ExtractContentObject | main.py:336-377 | a well-formed `{"content":"…"}` object at the head of the buffer is extracted whole, whatever follows it |
| Extractor.Drain | main.py:661-669 | draining leaves a buffer holding no complete object, and never a longer one |
| Extractor.DrainAppend | main.py:656-669 | draining is independent of how the input is split: draining a buffer and then the rest plus new input yields the same spans and leftover as draining everything at once |
| Extractor.DrainContentObjects | main.py:661-669 | a run of content objects drains into exactly those objects, in order |
| EventStream.ParseEventStream | main.py:403-455 | the character loop returns exactly the fold `EventStreamText`, including the early exit when a `content` lookup raises |
| EventStream.AbsorbAppend | main.py:417-448 | the loop state after `a + b` is the state after `a` carried on through `b` |
| EventStream.FailedIsFinal | main.py:441-444 | once a lookup has raised, no further input changes anything |
| EventStream.UndecodableTextAccumulates | main.py:437-448 | when nothing decodes, every character is accumulated and no fragment is collected |
| EventStream.UndecodableBodyIsReturned | main.py:451-455 | when nothing decodes, the raw body is returned as it is |
| EventStream.ContentObjectsText | main.py:440-452 | a body made of content objects yields the concatenation of their texts |
| EventStream.AmazonQToOpenAIResponse | main.py:457-490 | the completion fails exactly when parsing raises; otherwise its content is the parsed text, its model and timestamp are the given ones, its id is `chatcmpl-` followed by the first 8 characters of the conversation id (all of it when shorter), and it is a `chat.completion` with one `assistant` choice at index 0, finish reason `stop` and zero usage |
| EventStream.ToAnthropicMessage | main.py:713-735 | the Anthropic reply carries the completion's text and model, the id `msg_` plus the hex id, type `message`, role `assistant`, stop reason `end_turn` and zero input and output tokens |
| EventStream.ReplyFromContentObjects | main.py:457-490 | for a body of content objects, both reply envelopes carry the concatenated fragments |
| EventStream.HiThereReply | main.py:457-490 | a body holding one `{"content":"Hi there!"}` object yields a completion whose content is `Hi there!` |
| Messages.MessagesToContent | main.py:384-400 | the result is never a block list, because lists are flattened; without any user message it is the empty string; it fails, with the error of the lookup on a non-dict entry, exactly when some entry that is not a dict has no user message after it |
| Messages.LastUserMessageWins | main.py:386-399 | the result is the flattened content of the last user message, whatever precedes it |
| Messages.AppendMessage | main.py:386-387 | a new message decides the result exactly when it is a user message; otherwise the result is unchanged |
| Messages.AllTextBlocks | main.py:391-396 | for a list of text items, the joined parts are those items' texts, in order |
| Messages.OtherBlocksIgnored | main.py:393-395 | items that are not text dicts do not change the joined text |
| Messages.FlattenSplits | main.py:396 | the space join is reversible when no text contains a space |
| Messages.ModelId | main.py:613-618 | the upstream model id is `claude-sonnet-4` exactly when that model was asked for, and `claude-sonnet-4.5` otherwise |
| Messages.PlanChatRequest | main.py:584-618 | the request is rejected with 400 exactly when `messages` is empty; it cannot be forwarded exactly when `messages_to_content` fails, with that failure; with `log_requests` on (the default), the `content[:max_len]` preview fails exactly when `messages_to_content` returns a value that is neither a string nor a list, and a forwarded content is then always a string; otherwise the content is `messages_to_content`'s result (a string, or, with `log_requests` off, a non-list JSON value passed on as it is), the model is the requested one or `claude-sonnet-4.5`, the upstream model id is `ModelId` of that model, and streaming happens exactly when `stream` is true |
| Messages.ForwardsLastUserMessage | main.py:584-618 | a request whose last user message is followed only by other messages is forwarded with that message's flattened content and the model id of the requested or default model, except that with `log_requests` on a content that is neither a string nor a list fails the preview instead |
| Frames.CreateStreamChunk | main.py:493-563 | an OpenAI chunk carries a delta exactly for `content` and `finish_reason: stop` exactly for `end`; an Anthropic chunk is the event for its chunk type, with the model on `message_start` and the text on `content_block_delta` |
| Frames.OpenAIChunksWithoutContent | main.py:550-562 | an OpenAI chunk of any type other than `content` and `end` is the same empty chunk |
| Frames.Wire | main.py:563 | a frame is `data: `, its payload and a blank line |
| Frames.FramesSplit | main.py:563 | when payloads contain no newline, the frame stream splits back into one `data:` line and one blank line per frame |
| Streaming.Cap | main.py:656-658 | the capped buffer is a suffix of the buffer, at most `cap` characters long for a positive cap, and the whole buffer when it is within the cap or when the cap is 0 |
| Streaming.Pump | main.py:650-669 | for a positive cap, the buffer between chunks never exceeds the cap |
| Streaming.Generate | main.py:642-698 | the generator yields exactly `StreamFrames`: the opening frames, one frame per extracted fragment, then the closing frames, or an error frame where an exception ends the stream |
| Streaming.DrainBuffer | main.py:661-676 | the inner loop consumes a prefix of the spans `Drain` extracts, emitting their frames; when no lookup raises it consumes all of them and leaves `Drain`'s leftover |
| Streaming.PumpPrefix | main.py:650-669 | the spans extracted after some of the chunks are a prefix of those extracted after all of them |
| Streaming.PumpMatchesWhole | main.py:650-669 | when the whole body fits within the cap, chunking does not matter: the spans are those of draining the concatenated body |
| Streaming.DefaultBufferBehaviour | main.py:650-669 | with the default cap of 10240 characters (`BUFFER_MAX_SIZE`, line 62), the buffer between chunks never exceeds 10240 characters, and a body within that size is drained as if unchunked |
| Streaming.EmitWithoutRaise | main.py:661-676 | when no lookup raises, exactly one content frame is emitted per decoded fragment, in order |
| Streaming.AnthropicStreamShape | main.py:644-681 | an Anthropic stream is `message_start`, `content_block_start`, one delta per fragment, `content_block_stop`, `message_delta` |
| Streaming.OpenAIStreamShape | main.py:661-684 | an OpenAI stream is one content chunk per fragment, then the stop chunk, then `[DONE]` |
| Streaming.BrokenUpstreamShape | main.py:690-698 | when the upstream body breaks off, the stream ends with the error frame instead of the closing frames |
| Streaming.ChunkedOpenAIStream | main.py:642-698 | however a body of content objects is split into chunks (within the cap), the OpenAI stream carries exactly their texts |
| Auth.Refresh | main.py:145-195 | a usable CLI database token is preferred and adopted; otherwise the refresh succeeds exactly when the grant is usable (non-empty `refresh_token`, client id and secret present, a non-error reply carrying `accessToken`), and then yields that `accessToken`, stores it only under `access_token` in the credentials and sets the expiry to the clock reading taken after the endpoint answered, plus the lifetime, minus `margin`; a refreshed token is stored as the current token; a failed refresh changes nothing; the missing-refresh-token error is raised exactly when the CLI database has no usable token and `refresh_token` is missing or empty |
| Auth.AccessToken | main.py:197-203 | a cached token that is present, non-empty and unexpired is returned without a refresh; otherwise the result is that of a refresh |
| Auth.HandedOutTokenIsKept | main.py:197-203 | the token handed out is the one kept; it is empty only if the token endpoint granted an empty token, and then every later call refreshes again |
| Auth.GrantedTokenValidity | main.py:178-200 | a granted token expires `margin` seconds before its lifetime, 3600 seconds by default, counted from the clock reading after the endpoint answered, and is reused exactly until then |
| Auth.DefaultGrantLifetime | main.py:178-200 | with the default margin of 300 seconds (`TOKEN_REFRESH_MARGIN`, line 63) and no `expiresIn`, a non-empty granted token is reused exactly for the 3300 seconds after the endpoint answered |
| Auth.CliTokenKeepsStaleExpiry | main.py:95-150 | a token taken from the CLI database leaves the expiry as it was, so a passed expiry keeps forcing refreshes |
| Auth.AmazonQAuthManager.constructor | main.py:69-78 | a new manager has no expiry, the loaded credentials, and their `access_token` as current token when it is non-empty |
| Auth.AmazonQAuthManager.SetCredentials | main.py:87-93 | only the credentials change |
| Auth.AmazonQAuthManager.RefreshAccessToken | main.py:145-195 | the fields and the result are exactly those of `Refresh` |
| Auth.AmazonQAuthManager.GetAccessToken | main.py:197-203 | the fields and the result are exactly those of `AccessToken` |
| Client.RaiseForStatus | main.py:320 | `raise_for_status` fails exactly on a 4xx or 5xx status, with that status, and passes any other status through |
| Client.Send | main.py:241-333 | at most two POSTs, both with the same body; a second POST only after a 403 with retrying on; the first POST carries the token `get_access_token` returned; a failed token lookup fails the call with no POST; an unreachable endpoint fails it after one POST; without the 403 retry the first status decides through `raise_for_status`; after a retried POST that is answered, the second status decides; when the retry cannot be made or its POST does not connect, the call fails with the original 403; the manager ends as the first token lookup left it unless the forced refresh succeeded, and then as the lookup that rebuilt the headers left it |
| Client.RetryForbidden | main.py:305-320 | the retry after a 403 keeps the first POST and makes at most one more, with the same body; the second POST is made exactly when the forced refresh and the following token lookup succeed, and carries that token; a failed refresh leaves the manager unchanged, and after a successful one the manager is as the lookup that rebuilt the headers left it; an answered second POST decides through `raise_for_status`, and otherwise the outcome is the original 403 |
| Client.SecondPostOnlyAfterForbidden | main.py:305-318 | a second POST is made exactly when the first was answered 403, retrying is on, the forced refresh succeeded and the headers could be rebuilt |
| Client.FailedRefreshReportsForbidden | main.py:305-320 | when the forced refresh raises, there is one POST and the call fails with the original 403, with the manager as the first token lookup left it |
| Client.RetryUsesRefreshedToken | main.py:309-314 | the retried POST carries the token the forced refresh produced, unless it expired before the headers were rebuilt |
| Client.NoRetryOnePost | main.py:305 | with retrying off, at most one POST is made |
| Client.AmazonQClient.SendMessage | main.py:241-333 | the POSTs made, the outcome and the manager's new fields are exactly those of `Send` |
| Client.AmazonQClient.RetryAfterForbidden | main.py:305-320 | the POSTs, the status left for `raise_for_status` and the manager's new fields are exactly those of `RetryForbidden` |

## Left out

- HTTP, TLS, Flask routing and the SSE response object. The routes `/v1/models`, `/credentials`, `/test/token`, `/health` and `/` return fixed or I/O-derived documents and are not part of this model.
- The 503 and 500 error envelopes of `_handle_chat_request`. The model stops at the plan before the upstream call and at the errors `send_message` raises.
- The JSON grammar. `json.loads` and the `'content' in obj` lookup are an abstract decoder parameter. The exact JSON text of each frame is the parameter `encode`, so uuids and timestamps inside frames are not modelled.
- Reading and writing the credentials file and the CLI's sqlite database. The database lookup is an input: a usable token or none. A write that fails after the fields were updated is not modelled.
- `_get_headers` and `_sign_request`: the headers are reduced to the bearer token they carry.
- The fixed parts of the upstream payload (`chatTriggerType`, `origin`, `editorState`, `envState`, `history`), and `profile_arn`, which `send_message` ignores.
- Logging and the `log_config` switches, including the `content[:max_len]` previews. The one exception is the content preview under `log_requests`: it can raise, and `PlanChatRequest` models that failure.
- Request values of unexpected JSON types. `model` is taken to be a string, `stream` a boolean and `messages` a list; a non-string `text` in a content block is not modelled.
- Text.Strip: the whitespace set is the one `str.isspace` accepts below U+0100; Python's `str.strip()` also removes the Unicode whitespace above it (U+1680, U+2000 to U+200A, U+2028 and others).
- EventStream.ParseEventStream: a decoded `content` that is not a string (a number, `null`, a list or an object) is not modelled; the decoder's `Parsed` outcome carries a string. In `main.py` such a value makes `''.join` raise `TypeError` (lines 444 and 452).
- Streaming.Generate: a decoded `content` that is not a string is not modelled; `main.py` passes such a value unchanged into the content frame (lines 669-674).
- Streaming.Generate: `iter_content`'s chunk size and Unicode decoding are not modelled; the chunks are given as already-decoded strings.
- Time is an integer number of seconds, and `datetime` arithmetic is not modelled beyond that.

=== FILE: auth.dfy ===
/**
 * `AmazonQAuthManager` (main.py): when the access token is refreshed and
 * what a refresh does to the manager's state. The Amazon Q CLI database,
 * the OIDC token endpoint and the clock are inputs; writes of the
 * credentials file are taken to succeed.
 */
module Auth {
  import opened Wrappers

  /** The `token_refresh_margin_seconds` used when the configuration does not set one. */
  const DefaultRefreshMargin: int := 300

  /** The `expiresIn` assumed when the token endpoint does not send one. */
  const DefaultExpiresIn: int := 3600

  /** What `_extract_token_from_cli_db` finds: no usable token row, or a token and the refresh token stored with it. */
  datatype CliRead =
    | NoCliToken
    | CliToken(accessToken: string, refreshToken: Option<string>)

  /** The decoded body of the token endpoint's answer: its `accessToken` and `expiresIn`, or a body that is not JSON. */
  datatype GrantBody =
    | GrantBody(accessToken: Option<string>, expiresIn: Option<int>)
    | UnreadableBody

  /** The token endpoint's answer, or a request that never got one. */
  datatype GrantReply =
    | GrantReply(status: int, body: GrantBody)
    | GrantUnreachable

  /**
   * The outside world as one token lookup sees it: the clock reading of the
   * expiry test, the CLI database, the token endpoint, and the second clock
   * reading taken once the token endpoint has answered, from which a granted
   * token's expiry is computed.
   */
  datatype RefreshInputs = RefreshInputs(now: int, cli: CliRead, grant: GrantReply, grantedAt: int)

  /** The exceptions `_refresh_access_token` lets escape. */
  datatype AuthError =
    /** `ValueError`: no refresh token, and nothing in the CLI database. */
    | MissingRefreshToken
    /** `KeyError` on the named credential. */
    | MissingCredential(key: string)
    /** The token request failed: no answer, or an error status (400 to 599). */
    | GrantFailed(status: Option<int>)
    /** The answer could not be read as JSON. */
    | GrantUnreadable
    /** `KeyError` on `accessToken` in the answer. */
    | GrantWithoutToken

  /** The manager's fields; `tokenExpiry` is a clock reading in seconds. */
  datatype AuthState = AuthState(accessToken: Option<string>, tokenExpiry: Option<int>, credentials: map<string, string>)

  /** Python truthiness of an optional string. */
  predicate Truthy(s: Option<string>)
  {
    s.Some? && s.value != ""
  }

  /** `credentials.get(key)` */
  function Lookup(credentials: map<string, string>, key: string): Option<string>
  {
    if key in credentials then Some(credentials[key]) else None
  }

  /** Status codes for which `raise_for_status` raises. */
  predicate IsErrorStatus(status: int)
  {
    400 <= status < 600
  }

  /** The state a manager starts in: the stored access token, if truthy, and no expiry. */
  function Initial(credentials: map<string, string>): (s: AuthState)
    ensures s.tokenExpiry.None? && s.credentials == credentials
    ensures Truthy(s.accessToken) <==> Truthy(Lookup(credentials, "access_token"))
  {
    var stored := Lookup(credentials, "access_token");
    AuthState(if Truthy(stored) then stored else None, None, credentials)
  }

  /** `get_access_token` refreshes exactly when there is no truthy token, or an expiry is set and has been reached. */
  predicate NeedsRefresh(s: AuthState, now: int)
  {
    !Truthy(s.accessToken) || (s.tokenExpiry.Some? && now >= s.tokenExpiry.value)
  }

  /** The CLI database path: it succeeds when the row holds a truthy token, which replaces the current one. */
  predicate CliUsable(cli: CliRead)
  {
    cli.CliToken? && cli.accessToken != ""
  }

  function AdoptCliToken(s: AuthState, cli: CliRead): (r: AuthState)
    requires CliUsable(cli)
    ensures r.accessToken == Some(cli.accessToken) && r.tokenExpiry == s.tokenExpiry
    ensures "access_token" in r.credentials && r.credentials["access_token"] == cli.accessToken
    ensures Truthy(cli.refreshToken) ==> "refresh_token" in r.credentials && r.credentials["refresh_token"] == cli.refreshToken.value
    ensures forall k :: k in s.credentials && k != "access_token" && k != "refresh_token"
                        ==> k in r.credentials && r.credentials[k] == s.credentials[k]
  {
    var credentials := s.credentials["access_token" := cli.accessToken];
    var credentials' := if Truthy(cli.refreshToken) then credentials["refresh_token" := cli.refreshToken.value] else credentials;
    AuthState(Some(cli.accessToken), s.tokenExpiry, credentials')
  }

  /**
   * `_refresh_access_token`: take the CLI database's token if there is one;
   * otherwise trade the refresh token at the token endpoint and set the
   * expiry `margin` seconds before the token's lifetime ends, counting from
   * the clock reading taken after the endpoint answered. The new state
   * and the token returned, or the error raised with the state unchanged.
   */
  function Refresh(s: AuthState, inp: RefreshInputs, margin: int): (r: (AuthState, Result<string, AuthError>))
    ensures r.1.Success? ==> r.0.accessToken == Some(r.1.value)
    ensures r.1.Success? ==> "access_token" in r.0.credentials && r.0.credentials["access_token"] == r.1.value
    ensures r.1.Failure? ==> r.0 == s
    ensures r.1 == Failure(MissingRefreshToken) <==> !CliUsable(inp.cli) && !Truthy(Lookup(s.credentials, "refresh_token"))
    ensures CliUsable(inp.cli) ==> r.1 == Success(inp.cli.accessToken) && r.0 == AdoptCliToken(s, inp.cli)
    ensures !CliUsable(inp.cli) ==> (r.1.Success? <==> GrantUsable(s.credentials, inp.grant))
    ensures !CliUsable(inp.cli) && r.1.Success? ==>
      && r.1.value == inp.grant.body.accessToken.value
      && r.0.credentials == s.credentials["access_token" := r.1.value]
      && r.0.tokenExpiry == Some(inp.grantedAt + GrantLifetime(inp.grant.body) - margin)
  {
    if CliUsable(inp.cli) then
      (AdoptCliToken(s, inp.cli), Success(inp.cli.accessToken))
    else if !Truthy(Lookup(s.credentials, "refresh_token")) then
      (s, Failure(MissingRefreshToken))
    else if "client_id" !in s.credentials then
      (s, Failure(MissingCredential("client_id")))
    else if "client_secret" !in s.credentials then
      (s, Failure(MissingCredential("client_secret")))
    else
      match inp.grant
      case GrantUnreachable => (s, Failure(GrantFailed(None)))
      case GrantReply(status, body) =>
        if IsErrorStatus(status) then (s, Failure(GrantFailed(Some(status))))
        else
          match body
          case UnreadableBody => (s, Failure(GrantUnreadable))
          case GrantBody(None, _) => (s, Failure(GrantWithoutToken))
          case GrantBody(Some(token), expiresIn) =>
            (AuthState(Some(token), Some(inp.grantedAt + GrantLifetime(body) - margin), s.credentials["access_token" := token]),
             Success(token))
  }

  /**
   * The grant path succeeds when there is a truthy refresh token, the client
   * id and secret are present, and the endpoint answers a non-error status
   * with a body that holds an `accessToken`.
   */
  predicate GrantUsable(credentials: map<string, string>, grant: GrantReply)
  {
    && Truthy(Lookup(credentials, "refresh_token"))
    && "client_id" in credentials && "client_secret" in credentials
    && grant.GrantReply? && !IsErrorStatus(grant.status)
    && grant.body.GrantBody? && grant.body.accessToken.Some?
  }

  /** `token_data.get('expiresIn', 3600)` */
  function GrantLifetime(body: GrantBody): int
    requires body.GrantBody?
  {
    match body.expiresIn
    case Some(e) => e
    case None => DefaultExpiresIn
  }

  /** `get_access_token`: the current token while it is valid, a refresh otherwise. */
  function AccessToken(s: AuthState, inp: RefreshInputs, margin: int): (r: (AuthState, Result<string, AuthError>))
    ensures !NeedsRefresh(s, inp.now) ==> r == (s, Success(s.accessToken.value))
    ensures NeedsRefresh(s, inp.now) ==> r == Refresh(s, inp, margin)
  {
    if NeedsRefresh(s, inp.now) then Refresh(s, inp, margin) else (s, Success(s.accessToken.value))
  }

  /**
   * The token handed out is the one the manager keeps. It is empty only when
   * the token endpoint granted an empty token, and then the next call
   * refreshes again, whatever the clock says.
   */
  lemma HandedOutTokenIsKept(s: AuthState, inp: RefreshInputs, margin: int)
    ensures var (s', r) := AccessToken(s, inp, margin);
      r.Success? ==>
        && s'.accessToken == Some(r.value)
        && (r.value == "" ==> !CliUsable(inp.cli) && inp.grant.GrantReply? && inp.grant.body == GrantBody(Some(""), inp.grant.body.expiresIn))
        && (r.value == "" ==> forall later :: NeedsRefresh(s', later))
  {
  }

  /**
   * A token obtained from the token endpoint is reused, without a refresh,
   * until `margin` seconds before its lifetime ends.
   */
  lemma GrantedTokenValidity(s: AuthState, inp: RefreshInputs, margin: int, later: int)
    requires !CliUsable(inp.cli)
    requires inp.grant.GrantReply? && inp.grant.body.GrantBody? && inp.grant.body.accessToken.Some?
    requires inp.grant.body.accessToken.value != ""
    requires Refresh(s, inp, margin).1.Success?
    ensures var s' := Refresh(s, inp, margin).0;
      s'.tokenExpiry == Some(inp.grantedAt + GrantLifetime(inp.grant.body) - margin)
      && (!NeedsRefresh(s', later) <==> later < inp.grantedAt + GrantLifetime(inp.grant.body) - margin)
  {
  }

  /**
   * With the default margin and an answer without `expiresIn`, a granted
   * token is reused for 3300 seconds and refreshed from then on.
   */
  lemma DefaultGrantLifetime(s: AuthState, inp: RefreshInputs, later: int)
    requires !CliUsable(inp.cli) && GrantUsable(s.credentials, inp.grant)
    requires inp.grant.body.expiresIn.None? && inp.grant.body.accessToken.value != ""
    ensures !NeedsRefresh(Refresh(s, inp, DefaultRefreshMargin).0, later) <==> later < inp.grantedAt + 3300
  {
    GrantedTokenValidity(s, inp, DefaultRefreshMargin, later);
  }

  /**
   * The CLI path leaves `token_expiry` alone: once an expiry set by an
   * earlier grant has passed, a token taken from the CLI database does not
   * stop the next call from refreshing again.
   */
  lemma CliTokenKeepsStaleExpiry(s: AuthState, inp: RefreshInputs, margin: int, later: int)
    requires CliUsable(inp.cli)
    requires s.tokenExpiry.Some? && later >= s.tokenExpiry.value
    ensures NeedsRefresh(Refresh(s, inp, margin).0, later)
  {
  }

  /** The manager; its methods change its fields as the functions above describe. */
  class AmazonQAuthManager {
    var accessToken: Option<string>
    var tokenExpiry: Option<int>
    var credentials: map<string, string>

    function State(): AuthState
      reads this
    {
      AuthState(accessToken, tokenExpiry, credentials)
    }

    /** `__init__`, given the credentials `_load_credentials` read (the empty map when there is no file). */
    constructor(loaded: map<string, string>)
      ensures State() == Initial(loaded)
    {
      accessToken := None;
      tokenExpiry := None;
      credentials := loaded;
      if "access_token" in loaded && loaded["access_token"] != "" {
        accessToken := Some(loaded["access_token"]);
      }
    }

    /** `set_credentials`: only the credentials change; the current token and expiry stay. */
    method SetCredentials(c: map<string, string>)
      modifies this
      ensures State() == AuthState(old(accessToken), old(tokenExpiry), c)
    {
      credentials := c;
    }

    /** `_refresh_access_token` */
    method RefreshAccessToken(inp: RefreshInputs, margin: int) returns (r: Result<string, AuthError>)
      modifies this
      ensures (State(), r) == Refresh(old(State()), inp, margin)
    {
      if CliUsable(inp.cli) {
        accessToken := Some(inp.cli.accessToken);
        credentials := credentials["access_token" := inp.cli.accessToken];
        if Truthy(inp.cli.refreshToken) {
          credentials := credentials["refresh_token" := inp.cli.refreshToken.value];
        }
        return Success(accessToken.value);
      }
      if !("refresh_token" in credentials && credentials["refresh_token"] != "") {
        return Failure(MissingRefreshToken);
      }
      if "client_id" !in credentials {
        return Failure(MissingCredential("client_id"));
      }
      if "client_secret" !in credentials {
        return Failure(MissingCredential("client_secret"));
      }
      if inp.grant.GrantUnreachable? {
        return Failure(GrantFailed(None));
      }
      if IsErrorStatus(inp.grant.status) {
        return Failure(GrantFailed(Some(inp.grant.status)));
      }
      var body := inp.grant.body;
      if body.UnreadableBody? {
        return Failure(GrantUnreadable);
      }
      if body.accessToken.None? {
        return Failure(GrantWithoutToken);
      }
      accessToken := body.accessToken;
      var expiresIn := if body.expiresIn.Some? then body.expiresIn.value else DefaultExpiresIn;
      tokenExpiry := Some(inp.grantedAt + expiresIn - margin);
      credentials := credentials["access_token" := accessToken.value];
      return Success(accessToken.value);
    }

    /** `get_access_token` */
    method GetAccessToken(inp: RefreshInputs, margin: int) returns (r: Result<string, AuthError>)
      modifies this
      ensures (State(), r) == AccessToken(old(State()), inp, margin)
    {
      if accessToken.None? || accessToken.value == "" || (tokenExpiry.Some? && inp.now >= tokenExpiry.value) {
        r := RefreshAccessToken(inp, margin);
        return;
      }
      return Success(accessToken.value);
    }
  }
}

=== FILE: client.dfy ===
/**
 * `AmazonQClient.send_message` (main.py): build the request, post it with
 * the current bearer token, and after a 403 force a refresh and post it
 * once more. The HTTP exchanges and the clock are inputs.
 */
module Client {
  import opened Wrappers
  import opened Auth
  import Messages

  /** The parts of the `generateAssistantResponse` body that vary between calls. */
  datatype Payload = Payload(conversationId: string, content: Messages.Content, modelId: string)

  /** One POST: the bearer token of its headers and its body. */
  datatype Post = Post(token: string, payload: Payload)

  /** The answer to a POST: a status code, or a connection error. */
  datatype PostReply = Answered(status: int) | ConnectionFailed

  /** What each step of one call sees. */
  datatype SendInputs = SendInputs(
    /** The refresh inputs when the headers are first built. */
    headers: RefreshInputs,
    first: PostReply,
    /** The refresh inputs of the forced refresh after a 403. */
    forced: RefreshInputs,
    /** The refresh inputs when the headers are built again. */
    retryHeaders: RefreshInputs,
    second: PostReply)

  /** The exceptions `send_message` lets escape. */
  datatype SendError =
    | AuthFailed(error: AuthError)
    | Unreachable
    | HttpError(status: int)

  /** The manager's state afterwards, the POSTs made in order, and the status returned or the error raised. */
  datatype Sent = Sent(state: AuthState, posts: seq<Post>, outcome: Result<int, SendError>)

  /** `raise_for_status`: a status from 400 to 599 raises `HTTPError`; any other is returned. */
  function RaiseForStatus(status: int): (r: Result<int, SendError>)
    ensures r.Failure? <==> IsErrorStatus(status)
    ensures r.Failure? ==> r.error == HttpError(status)
    ensures r.Success? ==> r.value == status
  {
    if IsErrorStatus(status) then Failure(HttpError(status)) else Success(status)
  }

  /** `raise_for_status` on the response kept. */
  function Finish(s: AuthState, posts: seq<Post>, status: int): (r: Sent)
    ensures r.outcome.Failure? <==> IsErrorStatus(status)
  {
    Sent(s, posts, RaiseForStatus(status))
  }

  /** `if not conversation_id`: a missing or empty id is replaced by the fresh one. */
  function ConversationId(conversationId: Option<string>, freshId: string): string
  {
    if Truthy(conversationId) then conversationId.value else freshId
  }

  /**
   * `send_message`. Everything raised while retrying (the forced refresh,
   * rebuilding the headers, the second POST) is swallowed, and the first
   * response's status decides.
   */
  function Send(s: AuthState, message: Messages.Content, conversationId: Option<string>, freshId: string,
                modelId: string, retry: bool, inp: SendInputs, margin: int): (r: Sent)
    ensures |r.posts| <= 2
    ensures forall i :: 0 <= i < |r.posts| ==> r.posts[i].payload == Payload(ConversationId(conversationId, freshId), message, modelId)
    ensures |r.posts| == 2 ==> retry && inp.first == Answered(403)
    ensures AccessToken(s, inp.headers, margin).1.Failure? ==>
      r.posts == [] && r.outcome == Failure(AuthFailed(AccessToken(s, inp.headers, margin).1.error))
    ensures AccessToken(s, inp.headers, margin).1.Success? && inp.first.ConnectionFailed? ==>
      |r.posts| == 1 && r.outcome == Failure(Unreachable)
    ensures AccessToken(s, inp.headers, margin).1.Success? && inp.first.Answered? && !(inp.first.status == 403 && retry) ==>
      |r.posts| == 1 && r.outcome == RaiseForStatus(inp.first.status)
    ensures |r.posts| == 2 && inp.second.Answered? ==> r.outcome == RaiseForStatus(inp.second.status)
    ensures (AccessToken(s, inp.headers, margin).1.Success? && inp.first == Answered(403) && retry
             && (|r.posts| == 1 || inp.second.ConnectionFailed?)) ==> r.outcome == Failure(HttpError(403))
    ensures |r.posts| >= 1 ==> r.posts[0].token == AccessToken(s, inp.headers, margin).1.value
    ensures (|| AccessToken(s, inp.headers, margin).1.Failure?
             || !(retry && inp.first == Answered(403))
             || Refresh(AccessToken(s, inp.headers, margin).0, inp.forced, margin).1.Failure?)
            ==> r.state == AccessToken(s, inp.headers, margin).0
    ensures (&& AccessToken(s, inp.headers, margin).1.Success? && retry && inp.first == Answered(403)
             && Refresh(AccessToken(s, inp.headers, margin).0, inp.forced, margin).1.Success?)
            ==> r.state == AccessToken(Refresh(AccessToken(s, inp.headers, margin).0, inp.forced, margin).0, inp.retryHeaders, margin).0
  {
    var payload := Payload(ConversationId(conversationId, freshId), message, modelId);
    var (s1, h) := AccessToken(s, inp.headers, margin);
    if h.Failure? then Sent(s1, [], Failure(AuthFailed(h.error)))
    else
      var p1 := Post(h.value, payload);
      match inp.first
      case ConnectionFailed => Sent(s1, [p1], Failure(Unreachable))
      case Answered(status) =>
        if status == 403 && retry then RetryForbidden(s1, p1, inp, margin)
        else Finish(s1, [p1], status)
  }

  /**
   * The retry after a 403 on the first POST `p1`: force a refresh, rebuild
   * the headers and post the same body again. A failure anywhere on the way
   * leaves the 403 to decide; a connection error on the second POST too.
   */
  function RetryForbidden(s1: AuthState, p1: Post, inp: SendInputs, margin: int): (r: Sent)
    ensures 1 <= |r.posts| <= 2 && r.posts[0] == p1
    ensures |r.posts| == 2 ==> r.posts[1].payload == p1.payload
    ensures |r.posts| == 2 <==> Refresh(s1, inp.forced, margin).1.Success?
                                && AccessToken(Refresh(s1, inp.forced, margin).0, inp.retryHeaders, margin).1.Success?
    ensures |r.posts| == 2 ==> r.posts[1].token == AccessToken(Refresh(s1, inp.forced, margin).0, inp.retryHeaders, margin).1.value
    ensures Refresh(s1, inp.forced, margin).1.Failure? ==> r.state == s1
    ensures Refresh(s1, inp.forced, margin).1.Success?
            ==> r.state == AccessToken(Refresh(s1, inp.forced, margin).0, inp.retryHeaders, margin).0
    ensures |r.posts| == 2 && inp.second.Answered? ==> r.outcome == RaiseForStatus(inp.second.status)
    ensures |r.posts| == 1 || inp.second.ConnectionFailed? ==> r.outcome == Failure(HttpError(403))
  {
    var (s2, f) := Refresh(s1, inp.forced, margin);
    if f.Failure? then Finish(s2, [p1], 403)
    else
      var (s3, h2) := AccessToken(s2, inp.retryHeaders, margin);
      if h2.Failure? then Finish(s3, [p1], 403)
      else
        var p2 := Post(h2.value, p1.payload);
        match inp.second
        case ConnectionFailed => Finish(s3, [p1, p2], 403)
        case Answered(status2) => Finish(s3, [p1, p2], status2)
  }

  /**
   * A second POST is made exactly when the first was answered 403, retrying
   * is on, the forced refresh succeeded and the headers could be rebuilt.
   */
  lemma SecondPostOnlyAfterForbidden(s: AuthState, message: Messages.Content, conversationId: Option<string>, freshId: string,
                                     modelId: string, retry: bool, inp: SendInputs, margin: int)
    ensures var r := Send(s, message, conversationId, freshId, modelId, retry, inp, margin);
      var (s1, h) := AccessToken(s, inp.headers, margin);
      var (s2, f) := Refresh(s1, inp.forced, margin);
      |r.posts| == 2
      <==> h.Success? && inp.first == Answered(403) && retry && f.Success? && AccessToken(s2, inp.retryHeaders, margin).1.Success?
  {
  }

  /**
   * When the forced refresh raises, there is no second POST and the call
   * fails with the first response's 403, while any state the refresh did
   * not change stays as the first token lookup left it.
   */
  lemma FailedRefreshReportsForbidden(s: AuthState, message: Messages.Content, conversationId: Option<string>, freshId: string,
                                      modelId: string, inp: SendInputs, margin: int)
    requires AccessToken(s, inp.headers, margin).1.Success? && inp.first == Answered(403)
    requires Refresh(AccessToken(s, inp.headers, margin).0, inp.forced, margin).1.Failure?
    ensures var r := Send(s, message, conversationId, freshId, modelId, true, inp, margin);
      |r.posts| == 1 && r.outcome == Failure(HttpError(403)) && r.state == AccessToken(s, inp.headers, margin).0
  {
  }

  /**
   * The retried POST carries the token the forced refresh produced, unless
   * that token has already expired by the time the headers are rebuilt.
   */
  lemma RetryUsesRefreshedToken(s: AuthState, message: Messages.Content, conversationId: Option<string>, freshId: string,
                                modelId: string, inp: SendInputs, margin: int)
    requires var r := Send(s, message, conversationId, freshId, modelId, true, inp, margin); |r.posts| == 2
    requires var (s2, _) := Refresh(AccessToken(s, inp.headers, margin).0, inp.forced, margin); !NeedsRefresh(s2, inp.retryHeaders.now)
    ensures var r := Send(s, message, conversationId, freshId, modelId, true, inp, margin);
      r.posts[1].token == Refresh(AccessToken(s, inp.headers, margin).0, inp.forced, margin).1.value
  {
  }

  /** With retrying off, a call makes at most one POST. */
  lemma NoRetryOnePost(s: AuthState, message: Messages.Content, conversationId: Option<string>, freshId: string,
                       modelId: string, inp: SendInputs, margin: int)
    ensures |Send(s, message, conversationId, freshId, modelId, false, inp, margin).posts| <= 1
  {
  }

  /** The client; it shares the manager whose fields its calls update. */
  class AmazonQClient {
    const auth: AmazonQAuthManager

    constructor(auth: AmazonQAuthManager)
      ensures this.auth == auth
    {
      this.auth := auth;
    }

    /** `send_message`, with the POSTs it makes collected in order. */
    method SendMessage(message: Messages.Content, conversationId: Option<string>, freshId: string,
                       modelId: string, retry: bool, inp: SendInputs, margin: int)
      returns (posts: seq<Post>, outcome: Result<int, SendError>)
      modifies auth
      ensures Sent(auth.State(), posts, outcome) == Send(old(auth.State()), message, conversationId, freshId, modelId, retry, inp, margin)
    {
      var cid := freshId;
      if conversationId.Some? && conversationId.value != "" {
        cid := conversationId.value;
      }
      var payload := Payload(cid, message, modelId);
      posts := [];
      var token := auth.GetAccessToken(inp.headers, margin);
      if token.Failure? {
        return posts, Failure(AuthFailed(token.error));
      }
      posts := posts + [Post(token.value, payload)];
      if inp.first.ConnectionFailed? {
        return posts, Failure(Unreachable);
      }
      var status := inp.first.status;
      if status == 403 && retry {
        posts, status := RetryAfterForbidden(posts[0], inp, margin);
      }
      if IsErrorStatus(status) {
        return posts, Failure(HttpError(status));
      }
      return posts, Success(status);
    }

    /** The retry branch of `send_message`: the POSTs made, and the status `raise_for_status` sees. */
    method RetryAfterForbidden(p1: Post, inp: SendInputs, margin: int) returns (posts: seq<Post>, status: int)
      modifies auth
      ensures Finish(auth.State(), posts, status) == RetryForbidden(old(auth.State()), p1, inp, margin)
    {
      posts, status := [p1], 403;
      var refreshed := auth.RefreshAccessToken(inp.forced, margin);
      if refreshed.Success? {
        var token := auth.GetAccessToken(inp.retryHeaders, margin);
        if token.Success? {
          posts := posts + [Post(token.value, p1.payload)];
          if inp.second.Answered? {
            status := inp.second.status;
          }
        }
      }
    }
  }
}

=== FILE: decoding.dfy ===
/**
 * `json.loads` is not modelled; what the relay does with its answer is. A
 * decoder maps a piece of text to what the `json.loads(...)` call and the
 * `'content' in obj` / `obj['content']` lookup that follows it produce.
 */
module Decoding {
  import opened Wrappers

  datatype Decoded =
    /** `json.loads` raised `json.JSONDecodeError`. */
    | Malformed
    /** The text parsed, but the `content` lookup raised (`TypeError` on a number, `null`, or a string or list that contains "content"). */
    | LookupFails
    /** The text parsed; `content` is the string value of its `content` member, `None` when it has none. A value of another JSON type is not modelled. */
    | Parsed(content: Option<string>)

  type Decoder = string -> Decoded
}

=== FILE: event_stream.dfy ===
/**
 * `OpenAIConverter.parse_event_stream` and `amazonq_to_openai_response`
 * (main.py): the whole-body path used when the caller did not ask for a
 * stream.
 */
module EventStream {
  import opened Wrappers
  import opened Text
  import opened Scanning
  import opened Decoding
  import Extractor

  /** The `TypeError` that escapes `parse_event_stream` when a `content` lookup raises. */
  datatype ParseFault = LookupRaised

  /**
   * The loop state of `parse_event_stream`: the scanner, the text
   * accumulated since the last successful parse (`current_obj`), the
   * `content` values found so far (`json_objects`), and whether a lookup has
   * raised, which ends the loop.
   */
  datatype Accumulator = Accumulator(scan: Scanner, current: string, found: seq<string>, failed: bool)

  const Start: Accumulator := Accumulator(Fresh, "", [], false)

  /**
   * One character of the loop. The character is always appended to
   * `current_obj`. Only when it was neither escaped nor a backslash, and the
   * depth is then zero and the accumulated text is not blank, is the
   * stripped text decoded: a value resets the accumulator (recording its
   * `content` if it has one); a malformed text leaves it growing.
   */
  function Absorb(acc: Accumulator, c: char, decode: Decoder): (r: Accumulator)
  {
    if acc.failed then acc
    else
      var scan, current := Step(acc.scan, c), acc.current + [c];
      if acc.scan.escapeNext || c == '\\' || scan.depth != 0 || Strip(current) == [] then
        Accumulator(scan, current, acc.found, false)
      else
        match decode(Strip(current))
        case Malformed => Accumulator(scan, current, acc.found, false)
        case LookupFails => Accumulator(scan, current, acc.found, true)
        case Parsed(None) => Accumulator(scan, "", acc.found, false)
        case Parsed(Some(text)) => Accumulator(scan, "", acc.found + [text], false)
  }

  /** The loop run over all of `s`, from `acc`. */
  function AbsorbAll(acc: Accumulator, s: string, decode: Decoder): Accumulator
    decreases |s|
  {
    if s == [] then acc else Absorb(AbsorbAll(acc, s[..|s| - 1], decode), s[|s| - 1], decode)
  }

  /**
   * What `parse_event_stream` returns: the `content` values it found, joined
   * in order, or the raw text unchanged when it found none; the lookup's
   * `TypeError` escapes.
   */
  function EventStreamText(raw: string, decode: Decoder): (r: Result<string, ParseFault>)
  {
    var acc := AbsorbAll(Start, raw, decode);
    if acc.failed then Failure(LookupRaised)
    else if acc.found != [] then Success(Concat(acc.found))
    else Success(raw)
  }

  /** The loop of `parse_event_stream`, over the same variables. */
  method ParseEventStream(raw: string, decode: Decoder) returns (r: Result<string, ParseFault>)
    ensures r == EventStreamText(raw, decode)
  {
    var jsonObjects: seq<string> := [];
    var depth, currentObj, inString, escapeNext := 0, "", false, false;
    for i := 0 to |raw|
      invariant AbsorbAll(Start, raw[..i], decode)
                == Accumulator(Scanner(depth, inString, escapeNext), currentObj, jsonObjects, false)
    {
      var c := raw[i];
      assert raw[..i + 1][..i] == raw[..i];
      if escapeNext {
        currentObj := currentObj + [c];
        escapeNext := false;
        continue;
      }
      if c == '\\' {
        currentObj := currentObj + [c];
        escapeNext := true;
        continue;
      }
      if c == '"' && !escapeNext {
        inString := !inString;
      }
      if !inString {
        if c == '{' {
          depth := depth + 1;
        } else if c == '}' {
          depth := depth - 1;
        }
      }
      currentObj := currentObj + [c];
      if depth == 0 && Strip(currentObj) != [] {
        match decode(Strip(currentObj))
        case Malformed =>
        case LookupFails =>
          AbsorbStaysFailed(raw, i + 1, decode);
          return Failure(LookupRaised);
        case Parsed(content) =>
          if content.Some? {
            jsonObjects := jsonObjects + [content.value];
          }
          currentObj := "";
      }
    }
    assert raw[..|raw|] == raw;
    if jsonObjects != [] {
      return Success(Concat(jsonObjects));
    }
    return Success(raw);
  }

  /** The loop is restartable: running it over `a + b` is running it over `a`, then over `b`. */
  lemma {:induction false} AbsorbAppend(acc: Accumulator, a: string, b: string, decode: Decoder)
    ensures AbsorbAll(acc, a + b, decode) == AbsorbAll(AbsorbAll(acc, a, decode), b, decode)
    decreases |b|
  {
    if b == [] {
      assert a + b == a;
    } else {
      var b' := b[..|b| - 1];
      assert (a + b)[..|a + b| - 1] == a + b';
      assert (a + b)[|a + b| - 1] == b[|b| - 1];
      AbsorbAppend(acc, a, b', decode);
    }
  }

  /** Once a lookup has raised, nothing further changes. */
  lemma {:induction false} FailedIsFinal(acc: Accumulator, s: string, decode: Decoder)
    requires acc.failed
    ensures AbsorbAll(acc, s, decode) == acc
    decreases |s|
  {
    if s != [] {
      FailedIsFinal(acc, s[..|s| - 1], decode);
    }
  }

  lemma AbsorbStaysFailed(raw: string, n: nat, decode: Decoder)
    requires n <= |raw| && AbsorbAll(Start, raw[..n], decode).failed
    ensures AbsorbAll(Start, raw, decode).failed
  {
    assert raw == raw[..n] + raw[n..];
    AbsorbAppend(Start, raw[..n], raw[n..], decode);
    FailedIsFinal(AbsorbAll(Start, raw[..n], decode), raw[n..], decode);
  }

  /**
   * A failed parse never resets the accumulator: while no text decodes,
   * `current_obj` holds everything read since the last reset, nothing is
   * found, and the raw input comes back unchanged.
   */
  lemma {:induction false} UndecodableTextAccumulates(acc: Accumulator, s: string, decode: Decoder)
    requires !acc.failed
    requires forall t :: decode(t) == Malformed
    ensures AbsorbAll(acc, s, decode).current == acc.current + s
    ensures AbsorbAll(acc, s, decode).found == acc.found
    ensures !AbsorbAll(acc, s, decode).failed
    decreases |s|
  {
    if s == [] {
      assert acc.current + s == acc.current;
    } else {
      UndecodableTextAccumulates(acc, s[..|s| - 1], decode);
      assert acc.current + s[..|s| - 1] + [s[|s| - 1]] == acc.current + s;
    }
  }

  lemma UndecodableBodyIsReturned(raw: string, decode: Decoder)
    requires forall t :: decode(t) == Malformed
    ensures EventStreamText(raw, decode) == Success(raw)
  {
    UndecodableTextAccumulates(Start, raw, decode);
  }

  /**
   * Inside a content object the depth stays above zero, so nothing is decoded
   * until its closing brace; there the whole object is decoded, and the
   * accumulator is reset with its content recorded.
   */
  lemma AbsorbContentObject(acc: Accumulator, v: string, text: string, decode: Decoder)
    requires acc.scan == Fresh && acc.current == [] && !acc.failed
    requires QuotedBody(v) && decode(Extractor.ContentObject(v)) == Parsed(Some(text))
    ensures AbsorbAll(acc, Extractor.ContentObject(v), decode) == Accumulator(Fresh, "", acc.found + [text], false)
  {
    ContentObjectDepth(v);
    AbsorbBalanced(acc, Extractor.ContentObject(v), text, decode);
  }

  lemma AbsorbBalanced(acc: Accumulator, o: string, text: string, decode: Decoder)
    requires acc.scan == Fresh && acc.current == [] && !acc.failed
    requires |o| >= 1 && Extractor.ClosesAt(o, |o|) && Strip(o) == o && decode(o) == Parsed(Some(text))
    requires forall i :: 1 <= i < |o| ==> Run(Fresh, o[..i]).depth >= 1
    ensures AbsorbAll(acc, o, decode) == Accumulator(Fresh, "", acc.found + [text], false)
  {
    AbsorbInsideObject(acc, o, |o| - 1, decode);
    AbsorbClosingBrace(acc, o, text, decode);
  }

  lemma ContentObjectDepth(v: string)
    requires QuotedBody(v)
    ensures var o := Extractor.ContentObject(v);
      && Extractor.ClosesAt(o, |o|)
      && (forall i :: 1 <= i < |o| ==> Run(Fresh, o[..i]).depth >= 1)
      && Strip(o) == o
  {
    var o := Extractor.ContentObject(v);
    Extractor.ContentObjectCloses(v);
    Extractor.ObjectEndSpec(o, 1);
    assert o[0] == '{' && o[|o| - 1] == '}';
    forall j | 1 <= j < |o| ensures Run(Fresh, o[..j]).depth >= 1 {
      Extractor.DepthPositiveBeforeClose(o, j);
    }
  }

  lemma AbsorbClosingBrace(acc: Accumulator, o: string, text: string, decode: Decoder)
    requires |o| >= 1 && Extractor.ClosesAt(o, |o|) && Strip(o) == o
    requires !acc.failed && decode(o) == Parsed(Some(text))
    requires AbsorbAll(acc, o[..|o| - 1], decode) == Accumulator(Run(Fresh, o[..|o| - 1]), o[..|o| - 1], acc.found, false)
    ensures AbsorbAll(acc, o, decode) == Accumulator(Fresh, "", acc.found + [text], false)
  {
    var p := o[..|o| - 1];
    assert p + ['}'] == o;
    RunPrefixStep(Fresh, o, |o| - 1);
    assert o[..|o|] == o;
    AbsorbLast(acc, p, '}', decode);
    AbsorbBrace(AbsorbAll(acc, p, decode), o, text, decode);
  }

  lemma AbsorbLast(acc: Accumulator, p: string, c: char, decode: Decoder)
    ensures AbsorbAll(acc, p + [c], decode) == Absorb(AbsorbAll(acc, p, decode), c, decode)
  {
    assert (p + [c])[..|p|] == p;
  }

  lemma AbsorbBrace(x: Accumulator, o: string, text: string, decode: Decoder)
    requires !x.failed && !x.scan.escapeNext && Step(x.scan, '}') == Fresh
    requires x.current + ['}'] == o && Strip(o) == o && decode(o) == Parsed(Some(text))
    ensures Absorb(x, '}', decode) == Accumulator(Fresh, "", x.found + [text], false)
  {
  }

  lemma {:induction false} AbsorbInsideObject(acc: Accumulator, o: string, j: nat, decode: Decoder)
    requires acc.scan == Fresh && acc.current == [] && !acc.failed
    requires j < |o|
    requires forall i :: 1 <= i < |o| ==> Run(Fresh, o[..i]).depth >= 1
    ensures AbsorbAll(acc, o[..j], decode) == Accumulator(Run(Fresh, o[..j]), o[..j], acc.found, false)
    decreases j
  {
    if j == 0 {
      assert o[..0] == [];
    } else {
      AbsorbInsideObject(acc, o, j - 1, decode);
      assert o[..j][..j - 1] == o[..j - 1];
      RunPrefixStep(Fresh, o, j - 1);
      assert o[..j - 1] + [o[j - 1]] == o[..j];
    }
  }

  /**
   * Back-to-back well-formed objects are each decoded once, at their closing
   * brace, and their contents are collected in order.
   */
  lemma {:induction false} AbsorbContentObjects(acc: Accumulator, vs: seq<string>, texts: seq<string>, decode: Decoder)
    requires acc.scan == Fresh && acc.current == [] && !acc.failed
    requires |vs| == |texts|
    requires forall i :: 0 <= i < |vs| ==> QuotedBody(vs[i])
    requires forall i :: 0 <= i < |vs| ==> decode(Extractor.ContentObject(vs[i])) == Parsed(Some(texts[i]))
    ensures AbsorbAll(acc, Extractor.ContentObjects(vs), decode) == Accumulator(Fresh, "", acc.found + texts, false)
    decreases |vs|
  {
    if vs == [] {
      assert acc.found + texts == acc.found;
    } else {
      var acc' := Accumulator(Fresh, "", acc.found + [texts[0]], false);
      ObjectsTail(vs, texts, decode);
      AbsorbContentObjects(acc', vs[1..], texts[1..], decode);
      AbsorbFirstObject(acc, vs, texts[0], decode);
      HeadTailSplits(acc.found, texts);
    }
  }

  lemma ObjectsTail(vs: seq<string>, texts: seq<string>, decode: Decoder)
    requires |vs| == |texts| >= 1
    requires forall i :: 0 <= i < |vs| ==> QuotedBody(vs[i])
    requires forall i :: 0 <= i < |vs| ==> decode(Extractor.ContentObject(vs[i])) == Parsed(Some(texts[i]))
    ensures QuotedBody(vs[0]) && decode(Extractor.ContentObject(vs[0])) == Parsed(Some(texts[0]))
    ensures |vs[1..]| == |texts[1..]|
    ensures forall i :: 0 <= i < |vs[1..]| ==> QuotedBody(vs[1..][i])
    ensures forall i :: 0 <= i < |vs[1..]| ==> decode(Extractor.ContentObject(vs[1..][i])) == Parsed(Some(texts[1..][i]))
  {
  }

  lemma AbsorbFirstObject(acc: Accumulator, vs: seq<string>, text: string, decode: Decoder)
    requires acc.scan == Fresh && acc.current == [] && !acc.failed
    requires vs != [] && QuotedBody(vs[0]) && decode(Extractor.ContentObject(vs[0])) == Parsed(Some(text))
    ensures AbsorbAll(acc, Extractor.ContentObjects(vs), decode)
            == AbsorbAll(Accumulator(Fresh, "", acc.found + [text], false), Extractor.ContentObjects(vs[1..]), decode)
  {
    var o, tail := Extractor.ContentObject(vs[0]), Extractor.ContentObjects(vs[1..]);
    Extractor.ContentObjectsCons(vs, "");
    assert Extractor.ContentObjects(vs) == o + tail;
    AbsorbAppend(acc, o, tail, decode);
    AbsorbContentObject(acc, vs[0], text, decode);
  }

  /**
   * A body made of well-formed content objects yields the concatenation of
   * their contents, in order; a body with none is empty and comes back
   * as it is, which is the empty text too.
   */
  lemma ContentObjectsText(vs: seq<string>, texts: seq<string>, decode: Decoder)
    requires |vs| == |texts|
    requires forall i :: 0 <= i < |vs| ==> QuotedBody(vs[i])
    requires forall i :: 0 <= i < |vs| ==> decode(Extractor.ContentObject(vs[i])) == Parsed(Some(texts[i]))
    ensures EventStreamText(Extractor.ContentObjects(vs), decode) == Success(Concat(texts))
  {
    AbsorbContentObjects(Start, vs, texts, decode);
    assert [] + texts == texts;
    if vs == [] {
      assert Extractor.ContentObjects(vs) == "";
    }
  }

  /** The `usage` block of a reply: the relay reports no token counts. */
  datatype Usage = Usage(promptTokens: nat, completionTokens: nat, totalTokens: nat)

  /** The `chat.completion` object of `amazonq_to_openai_response`, its single choice flattened into it. */
  datatype ChatCompletion = ChatCompletion(
    id: string, objectType: string, created: int, model: string,
    choiceIndex: nat, role: string, content: string, finishReason: string, usage: Usage)

  /**
   * `amazonq_to_openai_response`: the parsed text as the assistant message
   * of a finished completion whose id is `chatcmpl-` and the first eight
   * characters of the conversation id; `now` is the `int(time.time())`
   * clock reading.
   */
  function AmazonQToOpenAIResponse(raw: string, model: string, conversationId: string, now: int, decode: Decoder)
    : (r: Result<ChatCompletion, ParseFault>)
    ensures r.Failure? <==> EventStreamText(raw, decode).Failure?
    ensures r.Success? ==> r.value.content == EventStreamText(raw, decode).value
    ensures r.Success? ==> r.value.model == model && r.value.created == now
    ensures r.Success? ==> r.value.id == "chatcmpl-" + Take(conversationId, 8)
    ensures r.Success? ==> r.value.objectType == "chat.completion" && r.value.choiceIndex == 0
    ensures r.Success? ==> r.value.role == "assistant" && r.value.finishReason == "stop" && r.value.usage == Usage(0, 0, 0)
  {
    match EventStreamText(raw, decode)
    case Failure(fault) => Failure(fault)
    case Success(content) =>
      Success(ChatCompletion("chatcmpl-" + Take(conversationId, 8), "chat.completion", now, model,
                             0, "assistant", content, "stop", Usage(0, 0, 0)))
  }

  /** The Anthropic `message` object built from a completion; `hex` is the `uuid4().hex` of its id. */
  datatype AnthropicMessage = AnthropicMessage(
    id: string, objectType: string, role: string, text: string, model: string,
    stopReason: string, inputTokens: nat, outputTokens: nat)

  function ToAnthropicMessage(reply: ChatCompletion, hex: string): (r: AnthropicMessage)
    ensures r.text == reply.content && r.model == reply.model
    ensures r.id == "msg_" + hex && r.stopReason == "end_turn"
    ensures r.objectType == "message" && r.role == "assistant" && r.inputTokens == 0 && r.outputTokens == 0
  {
    AnthropicMessage("msg_" + hex, "message", "assistant", reply.content, reply.model, "end_turn", 0, 0)
  }

  /**
   * A body made of well-formed content objects becomes a completion whose
   * message is their contents joined in order, and the Anthropic message
   * built from it carries the same text.
   */
  lemma ReplyFromContentObjects(vs: seq<string>, texts: seq<string>, decode: Decoder,
                                model: string, conversationId: string, now: int, hex: string)
    requires |vs| == |texts|
    requires forall i :: 0 <= i < |vs| ==> QuotedBody(vs[i])
    requires forall i :: 0 <= i < |vs| ==> decode(Extractor.ContentObject(vs[i])) == Parsed(Some(texts[i]))
    ensures var r := AmazonQToOpenAIResponse(Extractor.ContentObjects(vs), model, conversationId, now, decode);
      && r.Success?
      && r.value.content == Concat(texts)
      && ToAnthropicMessage(r.value, hex).text == Concat(texts)
  {
    ContentObjectsText(vs, texts, decode);
  }

  /**
   * The one-object reply `{"content":"Hi there!"}`, under a decoder that
   * reads it as its content, becomes the message "Hi there!".
   */
  lemma HiThereReply(decode: Decoder, model: string, conversationId: string, now: int)
    requires decode(Extractor.ContentObject(Escape("Hi there!"))) == Parsed(Some("Hi there!"))
    ensures var r := AmazonQToOpenAIResponse(Extractor.ContentObject(Escape("Hi there!")), model, conversationId, now, decode);
      r.Success? && r.value.content == "Hi there!"
  {
    var vs, texts := [Escape("Hi there!")], ["Hi there!"];
    EscapeIsQuotedBody("Hi there!");
    assert Extractor.ContentObjects(vs) == Extractor.ContentObject(vs[0]) + Extractor.ContentObjects([]);
    assert Extractor.ContentObjects(vs) == Extractor.ContentObject(Escape("Hi there!"));
    ContentObjectsText(vs, texts, decode);
    assert Concat(texts) == Concat([]) + "Hi there!";
  }
}

=== FILE: extractor.dfy ===
/**
 * `extract_json_from_buffer` (main.py): find the first `{"content":` in a
 * buffer and scan from there until the braces balance; hand back the object
 * and the tail after it, or nothing and the buffer untouched.
 */
module Extractor {
  import opened Wrappers
  import opened Text
  import opened Scanning

  /** The literal every upstream object starts with. */
  const Pattern: string := "{\"content\":"

  /**
   * Scanning `s` from the fresh state, its `k`-th character (`s[k - 1]`) is
   * a `}` that brings the depth back to zero.
   */
  predicate ClosesAt(s: string, k: nat)
    requires 1 <= k <= |s|
  {
    var st := Run(Fresh, s[..k - 1]);
    s[k - 1] == '}' && !st.escapeNext && !st.inString && st.depth == 1
  }

  /** The least `j >= k` with `ClosesAt(s, j)`, if there is one. */
  function ObjectEnd(s: string, k: nat): (r: Option<nat>)
    requires 1 <= k
    decreases |s| + 1 - k
    ensures r.Some? ==> k <= r.value <= |s|
  {
    if k > |s| then None
    else if ClosesAt(s, k) then Some(k)
    else ObjectEnd(s, k + 1)
  }

  /** `ObjectEnd` finds the least closing position from `k` on, and `None` means there is none. */
  lemma {:induction false} ObjectEndSpec(s: string, k: nat)
    requires 1 <= k
    decreases |s| + 1 - k
    ensures var r := ObjectEnd(s, k);
      && (r.Some? ==> ClosesAt(s, r.value) && forall j :: k <= j < r.value ==> !ClosesAt(s, j))
      && (r.None? ==> forall j :: k <= j <= |s| ==> !ClosesAt(s, j))
  {
    if k <= |s| && !ClosesAt(s, k) {
      ObjectEndSpec(s, k + 1);
    }
  }

  /** What `extract_json_from_buffer` returns; `ExtractCharacterised` says what that is. */
  function Extract(buffer: string): (r: (Option<string>, string))
    ensures r.0.None? ==> r.1 == buffer
    ensures r.0.Some? ==> |r.0.value| + |r.1| <= |buffer| && |r.1| < |buffer|
  {
    var start := Find(buffer, Pattern);
    if start < 0 then (None, buffer)
    else
      var s := buffer[start..];
      match ObjectEnd(s, 1)
      case None => (None, buffer)
      case Some(k) => (Some(s[..k]), s[k..])
  }

  /** The object, if any, never comes back to depth zero before its end. */
  ghost predicate FirstClose(span: string)
  {
    && |span| >= 1
    && ClosesAt(span, |span|)
    && forall j :: 1 <= j < |span| ==> !ClosesAt(span, j)
  }

  /**
   * With no `{"content":` in the buffer, or when the buffer ends before the
   * braces balance, extraction yields nothing and the buffer unchanged.
   * Otherwise the object starts at the FIRST occurrence of the pattern, is
   * the shortest stretch from there whose last character, a `}`, brings the
   * depth back to zero, and everything after it is the tail: only the text
   * before the object is dropped.
   */
  lemma ExtractCharacterised(buffer: string)
    ensures var r, start := Extract(buffer), Find(buffer, Pattern);
            r.0.None? <==> start == -1 || forall j :: 1 <= j <= |buffer| - start ==> !ClosesAt(buffer[start..], j)
    ensures var r, start := Extract(buffer), Find(buffer, Pattern);
            r.0.Some? ==>
              var span := r.0.value;
              && 0 <= start
              && buffer[start..] == span + r.1
              && |Pattern| < |span| && span[..|Pattern|] == Pattern
              && span[|span| - 1] == '}'
              && FirstClose(span)
  {
    var start := Find(buffer, Pattern);
    if start >= 0 {
      var s := buffer[start..];
      ObjectEndSpec(s, 1);
      match ObjectEnd(s, 1)
      case None =>
      case Some(k) =>
        assert s[..|Pattern|] == Pattern;
        SpanCharacterised(s, k);
    }
  }

  lemma SpanCharacterised(s: string, k: nat)
    requires |Pattern| <= |s| && s[..|Pattern|] == Pattern
    requires 1 <= k <= |s| && ClosesAt(s, k) && forall j :: 1 <= j < k ==> !ClosesAt(s, j)
    ensures s == s[..k] + s[k..]
    ensures |Pattern| < k && s[..k][..|Pattern|] == Pattern
    ensures FirstClose(s[..k])
  {
    assert s[k - 1] == '}';
    assert '}' !in Pattern;
    forall j | 1 <= j <= k ensures ClosesAt(s[..k], j) == ClosesAt(s, j) {
      assert s[..k][..j - 1] == s[..j - 1];
    }
  }

  /** `extract_json_from_buffer`: find the pattern, then scan from there for the closing brace. */
  method ExtractJsonFromBuffer(buffer: string) returns (json: Option<string>, remaining: string)
    ensures (json, remaining) == Extract(buffer)
  {
    var start := Find(buffer, Pattern);
    if start == -1 {
      return None, buffer;
    }
    var end := ScanObject(buffer, start);
    if end.None? {
      ExtractNotFound(buffer, start);
      return None, buffer;
    }
    ExtractFound(buffer, start, end.value);
    return Some(buffer[start..start + end.value]), buffer[start + end.value..];
  }

  /**
   * The loop of `extract_json_from_buffer`, over the same three variables:
   * how many characters from `start` on the object takes, if it closes.
   */
  method ScanObject(buffer: string, start: nat) returns (end: Option<nat>)
    requires start <= |buffer|
    ensures end == ObjectEnd(buffer[start..], 1)
  {
    ghost var s := buffer[start..];
    var depth, inString, escapeNext := 0, false, false;
    for i := start to |buffer|
      invariant Scanner(depth, inString, escapeNext) == Run(Fresh, s[..i - start])
      invariant ObjectEnd(s, 1) == ObjectEnd(s, i - start + 1)
    {
      var c := buffer[i];
      ghost var before := Scanner(depth, inString, escapeNext);
      var closed;
      depth, inString, escapeNext, closed := ScanChar(depth, inString, escapeNext, c);
      if closed {
        ScanCloses(s, i - start, before);
        return Some(i - start + 1);
      }
      ScanAdvance(s, i - start, before);
    }
    return None;
  }

  /**
   * The body of that loop for one character, its two `continue`s as early
   * returns: the new loop variables, and whether this `}` brought the depth
   * back to zero.
   */
  method ScanChar(depth: int, inString: bool, escapeNext: bool, c: char)
    returns (depth': int, inString': bool, escapeNext': bool, closed: bool)
    ensures Scanner(depth', inString', escapeNext') == Step(Scanner(depth, inString, escapeNext), c)
    ensures closed <==> c == '}' && !escapeNext && !inString && depth == 1
  {
    depth', inString', escapeNext', closed := depth, inString, escapeNext, false;
    if escapeNext' {
      escapeNext' := false;
      return;
    }
    if c == '\\' {
      escapeNext' := true;
      return;
    }
    if c == '"' {
      inString' := !inString';
    }
    if !inString' {
      if c == '{' {
        depth' := depth' + 1;
      } else if c == '}' {
        depth' := depth' - 1;
        if depth' == 0 {
          closed := true;
        }
      }
    }
  }

  /** One more character that does not close the object moves both loop invariants on. */
  lemma ScanAdvance(s: string, n: nat, st: Scanner)
    requires n < |s| && st == Run(Fresh, s[..n])
    requires !(s[n] == '}' && !st.escapeNext && !st.inString && st.depth == 1)
    ensures Step(st, s[n]) == Run(Fresh, s[..n + 1])
    ensures ObjectEnd(s, n + 1) == ObjectEnd(s, n + 2)
  {
    RunPrefixStep(Fresh, s, n);
  }

  /** A character that closes the object ends the search there. */
  lemma ScanCloses(s: string, n: nat, st: Scanner)
    requires n < |s| && st == Run(Fresh, s[..n])
    requires s[n] == '}' && !st.escapeNext && !st.inString && st.depth == 1
    ensures ObjectEnd(s, n + 1) == Some(n + 1)
  {
  }

  /** The scan from the pattern's first occurrence closes the object at its `k`-th character and not before. */
  lemma ExtractFound(buffer: string, start: nat, k: nat)
    requires start == Find(buffer, Pattern) && start <= |buffer|
    requires ObjectEnd(buffer[start..], 1) == Some(k)
    ensures start + k <= |buffer|
    ensures Extract(buffer) == (Some(buffer[start..start + k]), buffer[start + k..])
  {
    assert buffer[start..][..k] == buffer[start..start + k];
  }

  /** The scan from the pattern's first occurrence never closes the object. */
  lemma ExtractNotFound(buffer: string, start: nat)
    requires start == Find(buffer, Pattern) && start <= |buffer|
    requires ObjectEnd(buffer[start..], 1).None?
    ensures Extract(buffer) == (None, buffer)
  {
  }

  /**
   * Between its first character and its last, an extracted object never
   * comes back to depth zero, and its last character does: a closing brace
   * inside a string or right after a backslash does not end it early.
   */
  lemma ExtractedObjectBalanced(buffer: string)
    requires Extract(buffer).0.Some?
    ensures var span := Extract(buffer).0.value;
            && Run(Fresh, span).depth == 0
            && forall j :: 1 <= j < |span| ==> Run(Fresh, span[..j]).depth >= 1
  {
    var span := Extract(buffer).0.value;
    ExtractCharacterised(buffer);
    assert span[0] == Pattern[0];
    SpanBalanced(span);
  }

  lemma SpanBalanced(span: string)
    requires FirstClose(span) && span[0] == '{'
    ensures Run(Fresh, span).depth == 0
    ensures forall j :: 1 <= j < |span| ==> Run(Fresh, span[..j]).depth >= 1
  {
    forall j | 1 <= j < |span| ensures Run(Fresh, span[..j]).depth >= 1 {
      DepthPositiveBeforeClose(span, j);
    }
    RunPrefixStep(Fresh, span, |span| - 1);
    assert span[..|span|] == span;
  }

  lemma {:induction false} DepthPositiveBeforeClose(s: string, j: nat)
    requires |s| > 0 && s[0] == '{'
    requires 1 <= j <= |s|
    requires forall i :: 1 <= i <= j ==> !ClosesAt(s, i)
    ensures Run(Fresh, s[..j]).depth >= 1
    decreases j
  {
    RunPrefixStep(Fresh, s, j - 1);
    if j == 1 {
      assert s[..0] == [];
    } else {
      DepthPositiveBeforeClose(s, j - 1);
      assert !ClosesAt(s, j);
    }
  }

  lemma ClosesAtAppend(s: string, more: string, j: nat)
    requires 1 <= j <= |s|
    ensures ClosesAt(s + more, j) == ClosesAt(s, j)
  {
    assert (s + more)[..j - 1] == s[..j - 1];
  }

  lemma ObjectEndAppend(s: string, more: string)
    requires ObjectEnd(s, 1).Some?
    ensures ObjectEnd(s + more, 1) == ObjectEnd(s, 1)
  {
    var k := ObjectEnd(s, 1).value;
    ObjectEndSpec(s, 1);
    ObjectEndSpec(s + more, 1);
    ClosesAtAppend(s, more, k);
    var r := ObjectEnd(s + more, 1);
    if r.None? || r.value < k {
      var j := if r.None? then k else r.value;
      ClosesAtAppend(s, more, j);
    }
  }

  /**
   * Extraction is stable under appending: once an object can be extracted
   * from a buffer, appending more text yields the same object, with the new
   * text after the old tail.
   */
  lemma ExtractAppend(buffer: string, more: string)
    requires Extract(buffer).0.Some?
    ensures Extract(buffer + more) == (Extract(buffer).0, Extract(buffer).1 + more)
  {
    var start := Find(buffer, Pattern);
    FindAppend(buffer, more, Pattern);
    var s := buffer[start..];
    assert (buffer + more)[start..] == s + more;
    ObjectEndAppend(s, more);
    var k := ObjectEnd(s, 1).value;
    assert (s + more)[..k] == s[..k];
    assert (s + more)[k..] == s[k..] + more;
  }

  /** A well-formed upstream object whose only member is `content`, with string body `v`. */
  function ContentObject(v: string): string
  {
    Pattern + "\"" + v + "\"}"
  }

  /** Scanning `{"content":"` leaves the scanner inside a string at depth one. */
  lemma HeadRun()
    ensures Run(Fresh, Pattern + "\"") == Scanner(1, true, false)
  {
    var out, ins := Scanner(1, false, false), Scanner(1, true, false);
    var h := Pattern + "\"";
    var w := ['c', 'o', 'n', 't', 'e', 'n', 't'];
    var tail := ['"', ':', '"'];
    assert h == ['{', '"'] + w + tail;
    RunAppend(Fresh, ['{', '"'], w + tail);
    assert ['{', '"'] + w + tail == ['{', '"'] + (w + tail);
    assert Run(Fresh, ['{', '"']) == ins by {
      assert Step(Fresh, '{') == out;
      assert ['{', '"'][1..] == ['"'];
      assert ['"'][1..] == [];
    }
    RunPlain(ins, w);
    RunAppend(ins, w, tail);
    assert Run(ins, tail) == ins by {
      assert Step(ins, '"') == out;
      assert Step(out, ':') == out;
      assert Step(out, '"') == ins;
      assert tail[1..] == [':', '"'];
      assert tail[1..][1..] == ['"'];
      assert tail[1..][1..][1..] == [];
    }
  }

  /** Every well-formed content object closes exactly at its last character. */
  lemma ContentObjectCloses(v: string)
    requires QuotedBody(v)
    ensures ObjectEnd(ContentObject(v), 1) == Some(|ContentObject(v)|)
  {
    var head := Pattern + "\"";
    var o := ContentObject(v);
    assert o == head + v + "\"}";
    var inside := Scanner(1, true, false);
    HeadRun();
    QuotedBodyInert(1, v, |v|);
    forall j | 1 <= j < |o| ensures !ClosesAt(o, j) {
      if j - 1 < |head| {
        assert o[j - 1] == head[j - 1];
      } else if j - 1 < |head| + |v| {
        var m := j - 1 - |head|;
        QuotedBodyInert(1, v, m);
        assert o[..j - 1] == head + v[..m];
        RunAppend(Fresh, head, v[..m]);
      } else {
        assert o[j - 1] == '"';
      }
    }
    assert o[..|o| - 1] == head + v + "\"";
    RunAppend(Fresh, head, v);
    RunAppend(Fresh, head + v, "\"");
    assert ClosesAt(o, |o|);
    ObjectEndSpec(o, 1);
  }

  /** A well-formed object at the head of a buffer is extracted whole, and the tail is left as it was. */
  lemma ExtractContentObject(v: string, rest: string)
    requires QuotedBody(v)
    ensures Extract(ContentObject(v) + rest) == (Some(ContentObject(v)), rest)
  {
    var o := ContentObject(v);
    var b := o + rest;
    assert OccursAt(b, Pattern, 0);
    assert Find(b, Pattern) == 0;
    ContentObjectCloses(v);
    ObjectEndAppend(o, rest);
    assert b[0..] == b;
    assert b[..|o|] == o;
    assert b[|o|..] == rest;
  }

  /**
   * The inner `while` of the streaming loop: extract objects until none is
   * left. It ends because every extraction strictly shortens the buffer.
   */
  function Drain(buffer: string): (r: (seq<string>, string))
    decreases |buffer|
    ensures Extract(r.1).0.None?
    ensures |r.1| <= |buffer|
  {
    match Extract(buffer)
    case (None, _) => ([], buffer)
    case (Some(span), rest) =>
      var (more, left) := Drain(rest);
      ([span] + more, left)
  }

  lemma DrainUnfold(buffer: string)
    ensures Extract(buffer).0.None? ==> Drain(buffer) == ([], buffer)
    ensures Extract(buffer).0.Some? ==> Drain(buffer).0 == [Extract(buffer).0.value] + Drain(Extract(buffer).1).0
    ensures Extract(buffer).0.Some? ==> Drain(buffer).1 == Drain(Extract(buffer).1).1
  {
  }

  lemma DrainAppended(buffer: string, more: string)
    requires Extract(buffer).0.Some?
    ensures Drain(buffer + more).0 == [Extract(buffer).0.value] + Drain(Extract(buffer).1 + more).0
    ensures Drain(buffer + more).1 == Drain(Extract(buffer).1 + more).1
  {
    ExtractAppend(buffer, more);
    DrainUnfold(buffer + more);
  }

  /**
   * Chunk boundaries do not matter: draining a buffer, appending more text
   * to what is left and draining again yields the same objects, in the same
   * order, and the same leftover as draining everything at once.
   */
  lemma {:induction false} DrainAppend(buffer: string, more: string)
    ensures Drain(buffer).0 + Drain(Drain(buffer).1 + more).0 == Drain(buffer + more).0
    ensures Drain(Drain(buffer).1 + more).1 == Drain(buffer + more).1
    decreases |buffer|
  {
    DrainUnfold(buffer);
    if Extract(buffer).0.Some? {
      var rest := Extract(buffer).1;
      DrainAppend(rest, more);
      DrainAppendStep(buffer, more);
    }
  }

  lemma DrainAppendStep(buffer: string, more: string)
    requires Extract(buffer).0.Some?
    requires var rest := Extract(buffer).1;
             && Drain(rest).0 + Drain(Drain(rest).1 + more).0 == Drain(rest + more).0
             && Drain(Drain(rest).1 + more).1 == Drain(rest + more).1
    ensures Drain(buffer).0 + Drain(Drain(buffer).1 + more).0 == Drain(buffer + more).0
    ensures Drain(Drain(buffer).1 + more).1 == Drain(buffer + more).1
  {
    var span, rest := Extract(buffer).0.value, Extract(buffer).1;
    DrainAppended(buffer, more);
    DrainUnfold(buffer);
    ConsAppend(span, Drain(rest).0, Drain(Drain(rest).1 + more).0, Drain(rest + more).0);
  }

  /** The concatenation of the content objects with bodies `vs`, in order. */
  function ContentObjects(vs: seq<string>): string
    decreases |vs|
  {
    if vs == [] then "" else ContentObject(vs[0]) + ContentObjects(vs[1..])
  }

  function ContentObjectList(vs: seq<string>): (r: seq<string>)
  {
    seq(|vs|, i requires 0 <= i < |vs| => ContentObject(vs[i]))
  }

  /** Draining back-to-back well-formed objects yields exactly those objects, in order. */
  lemma {:induction false} DrainContentObjects(vs: seq<string>, rest: string)
    requires forall i :: 0 <= i < |vs| ==> QuotedBody(vs[i])
    ensures Drain(ContentObjects(vs) + rest).0 == ContentObjectList(vs) + Drain(rest).0
    ensures Drain(ContentObjects(vs) + rest).1 == Drain(rest).1
    decreases |vs|
  {
    if vs == [] {
      NoContentObjects(vs, rest);
    } else {
      QuotedTail(vs);
      DrainContentObjects(vs[1..], rest);
      DrainHeadObject(vs, rest);
    }
  }

  lemma NoContentObjects(vs: seq<string>, rest: string)
    requires vs == []
    ensures Drain(ContentObjects(vs) + rest).0 == ContentObjectList(vs) + Drain(rest).0
    ensures Drain(ContentObjects(vs) + rest).1 == Drain(rest).1
  {
    assert ContentObjects(vs) + rest == rest;
    assert ContentObjectList(vs) == [];
  }

  lemma QuotedTail(vs: seq<string>)
    requires vs != [] && forall i :: 0 <= i < |vs| ==> QuotedBody(vs[i])
    ensures QuotedBody(vs[0]) && forall i :: 0 <= i < |vs[1..]| ==> QuotedBody(vs[1..][i])
  {
  }

  lemma DrainHeadObject(vs: seq<string>, rest: string)
    requires vs != [] && QuotedBody(vs[0])
    requires Drain(ContentObjects(vs[1..]) + rest).0 == ContentObjectList(vs[1..]) + Drain(rest).0
    requires Drain(ContentObjects(vs[1..]) + rest).1 == Drain(rest).1
    ensures Drain(ContentObjects(vs) + rest).0 == ContentObjectList(vs) + Drain(rest).0
    ensures Drain(ContentObjects(vs) + rest).1 == Drain(rest).1
  {
    var o, tail := ContentObject(vs[0]), ContentObjects(vs[1..]) + rest;
    ContentObjectsCons(vs, rest);
    DrainContentObject(vs[0], tail);
    ConsAppend(o, ContentObjectList(vs[1..]), Drain(rest).0, Drain(tail).0);
  }

  lemma ContentObjectsCons(vs: seq<string>, rest: string)
    requires vs != []
    ensures ContentObjects(vs) + rest == ContentObject(vs[0]) + (ContentObjects(vs[1..]) + rest)
    ensures ContentObjectList(vs) == [ContentObject(vs[0])] + ContentObjectList(vs[1..])
  {
    assert ContentObjectList(vs) == [ContentObject(vs[0])] + ContentObjectList(vs[1..]);
  }

  lemma DrainContentObject(v: string, tail: string)
    requires QuotedBody(v)
    ensures Drain(ContentObject(v) + tail).0 == [ContentObject(v)] + Drain(tail).0
    ensures Drain(ContentObject(v) + tail).1 == Drain(tail).1
  {
    ExtractContentObject(v, tail);
    DrainUnfold(ContentObject(v) + tail);
  }
}

=== FILE: frames.dfy ===
/**
 * `OpenAIConverter.create_stream_chunk` (main.py) as event kinds, and the
 * server-sent-event framing `data: <payload>\n\n` every streamed frame gets.
 * Frame ids and `created` timestamps are not modelled.
 */
module Frames {
  import opened Wrappers
  import opened Text

  datatype Format = OpenAI | Anthropic

  /** The `chunk_type` argument. */
  datatype ChunkType = Start | ContentStart | Content | ContentEnd | End

  /** The exception an error frame reports. */
  datatype StreamFault =
    /** Reading the upstream response raised, with this message. */
    | UpstreamBroken(message: string)
    /** A `content` lookup raised. */
    | LookupRaised

  datatype Frame =
    /** Anthropic `message_start`, announcing an empty assistant message for `model`. */
    | MessageStart(model: string)
    /** Anthropic `content_block_start` of the single text block. */
    | ContentBlockStart
    /** Anthropic `content_block_delta` carrying one text fragment. */
    | ContentBlockDelta(text: string)
    /** Anthropic `content_block_stop`. */
    | ContentBlockStop
    /** Anthropic `message_delta` with stop reason `end_turn`. */
    | MessageDelta
    /** OpenAI `chat.completion.chunk`: a `content` delta or an empty one, and `finish_reason` "stop" or none. */
    | ChatChunk(model: string, delta: Option<string>, finishStop: bool)
    /** The OpenAI terminator `[DONE]`. */
    | Done
    /** The error object sent when the stream fails. */
    | StreamError(fault: StreamFault)

  /** `create_stream_chunk(content, model, chunk_type, format_type)`, as the event it encodes. */
  function CreateStreamChunk(content: string, model: string, chunkType: ChunkType, format: Format): (r: Frame)
    ensures format == OpenAI ==> r.ChatChunk? && r.model == model
    ensures format == OpenAI ==> (r.delta.Some? <==> chunkType == Content)
    ensures format == OpenAI ==> (r.delta.Some? ==> r.delta.value == content)
    ensures format == OpenAI ==> (r.finishStop <==> chunkType == End)
    ensures format == Anthropic ==> AnthropicKind(r) == Some(chunkType)
    ensures format == Anthropic && r.MessageStart? ==> r.model == model
    ensures format == Anthropic && r.ContentBlockDelta? ==> r.text == content
  {
    match format
    case Anthropic =>
      (match chunkType
       case Start => MessageStart(model)
       case ContentStart => ContentBlockStart
       case Content => ContentBlockDelta(content)
       case ContentEnd => ContentBlockStop
       case End => MessageDelta)
    case OpenAI =>
      ChatChunk(model, if chunkType == Content then Some(content) else None, chunkType == End)
  }

  /** The chunk type an Anthropic frame was built from. */
  function AnthropicKind(f: Frame): Option<ChunkType>
  {
    match f
    case MessageStart(_) => Some(Start)
    case ContentBlockStart => Some(ContentStart)
    case ContentBlockDelta(_) => Some(Content)
    case ContentBlockStop => Some(ContentEnd)
    case MessageDelta => Some(End)
    case _ => None
  }

  /**
   * In the OpenAI format the chunk types other than `content` and `end`
   * all produce the same empty chunk: the format has no distinct start
   * event.
   */
  lemma OpenAIChunksWithoutContent(model: string, content: string, t: ChunkType)
    requires t != Content && t != End
    ensures CreateStreamChunk(content, model, t, OpenAI) == CreateStreamChunk("", model, Start, OpenAI)
  {
  }

  /** The text after `data: `: the JSON encoding of the frame, or `[DONE]`. */
  function Payload(f: Frame, encode: Frame -> string): string
  {
    if f.Done? then "[DONE]" else encode(f)
  }

  /** One server-sent event. */
  function Wire(f: Frame, encode: Frame -> string): (w: string)
    ensures |w| >= 8 && w[..6] == "data: " && w[|w| - 2..] == "\n\n"
    ensures w[6..|w| - 2] == Payload(f, encode)
  {
    "data: " + Payload(f, encode) + "\n\n"
  }

  /** The response body: the events one after the other. */
  function WireAll(frames: seq<Frame>, encode: Frame -> string): string
    decreases |frames|
  {
    if frames == [] then "" else WireAll(frames[..|frames| - 1], encode) + Wire(frames[|frames| - 1], encode)
  }

  /** The lines of the body: a `data:` line and a blank line per frame. */
  function Lines(frames: seq<Frame>, encode: Frame -> string): (r: seq<string>)
    decreases |frames|
    ensures |r| == 2 * |frames|
  {
    if frames == [] then []
    else Lines(frames[..|frames| - 1], encode) + ["data: " + Payload(frames[|frames| - 1], encode), ""]
  }

  lemma {:induction false} LinesAt(frames: seq<Frame>, encode: Frame -> string, i: nat)
    requires i < |frames|
    ensures Lines(frames, encode)[2 * i] == "data: " + Payload(frames[i], encode)
    ensures Lines(frames, encode)[2 * i + 1] == ""
    decreases |frames|
  {
    if i < |frames| - 1 {
      LinesAt(frames[..|frames| - 1], encode, i);
    }
  }

  lemma JoinExtendLast(sep: string, xs: seq<string>, a: string, b: string)
    ensures JoinWith(sep, xs + [a]) + b == JoinWith(sep, xs + [a + b])
  {
    if xs != [] {
      assert (xs + [a])[..|xs|] == xs;
      assert (xs + [a + b])[..|xs|] == xs;
    }
  }

  /** The body is its lines joined by newlines, with a final empty line. */
  lemma {:induction false} WireAllJoinsLines(frames: seq<Frame>, encode: Frame -> string)
    ensures WireAll(frames, encode) == JoinWith("\n", Lines(frames, encode) + [""])
    decreases |frames|
  {
    if frames != [] {
      var init := frames[..|frames| - 1];
      var d := "data: " + Payload(frames[|frames| - 1], encode);
      var ls := Lines(init, encode);
      WireAllJoinsLines(init, encode);
      assert Lines(frames, encode) + [""] == ls + [d, "", ""];
      JoinTwoBlank(ls, d);
      JoinExtendLast("\n", ls, "", d);
      assert "" + d == d;
      WireSnoc(WireAll(init, encode), Payload(frames[|frames| - 1], encode));
    }
  }

  lemma WireSnoc(body: string, p: string)
    ensures body + ("data: " + p + "\n\n") == (body + ("data: " + p)) + "\n\n"
  {
  }

  lemma JoinTwoBlank(ls: seq<string>, d: string)
    ensures JoinWith("\n", ls + [d, "", ""]) == JoinWith("\n", ls + [d]) + "\n\n"
  {
    assert (ls + [d, "", ""])[..|ls| + 2] == ls + [d, ""];
    assert (ls + [d, ""])[..|ls| + 1] == ls + [d];
  }

  /**
   * The framing is unambiguous: when no JSON encoding contains a newline
   * (`json.dumps` escapes them), splitting the body at newlines gives back
   * exactly one `data:` line and one blank line per frame, in order.
   */
  lemma FramesSplit(frames: seq<Frame>, encode: Frame -> string)
    requires forall f :: '\n' !in encode(f)
    ensures SplitOn('\n', WireAll(frames, encode)) == Lines(frames, encode) + [""]
  {
    var parts := Lines(frames, encode) + [""];
    LinesWithoutNewline(frames, encode);
    WireAllJoinsLines(frames, encode);
    SplitJoin('\n', parts);
  }

  lemma {:induction false} LinesWithoutNewline(frames: seq<Frame>, encode: Frame -> string)
    requires forall f :: '\n' !in encode(f)
    ensures forall i :: 0 <= i < |Lines(frames, encode)| ==> '\n' !in Lines(frames, encode)[i]
    decreases |frames|
  {
    if frames != [] {
      var init := frames[..|frames| - 1];
      LinesWithoutNewline(init, encode);
      var d := "data: " + Payload(frames[|frames| - 1], encode);
      assert '\n' !in d;
      assert Lines(frames, encode) == Lines(init, encode) + [d, ""];
    }
  }
}

=== FILE: messages.dfy ===
/**
 * `OpenAIConverter.messages_to_content` and the request fields that
 * `_handle_chat_request` reads before calling the upstream service
 * (main.py). Requests are already decoded from JSON.
 */
module Messages {
  import opened Wrappers
  import opened Text

  /** One item of a list-valued `content`: a dict with its `type` and `text` entries, or anything else. */
  datatype Block =
    | Entry(kind: Option<string>, text: Option<string>)
    | NotADict

  /** A message's `content`: a string, a list of items, or any other JSON value, which is passed on as it is. */
  datatype Content =
    | Str(text: string)
    | Blocks(items: seq<Block>)
    | OtherValue(json: string)

  /** An entry of `messages`: a dict with its `role` and `content` entries, or a value that is not a dict. */
  datatype Message =
    | Message(role: Option<string>, content: Option<Content>)
    | NotAMessage

  /** The `AttributeError` raised by `msg.get` on an entry that is not a dict. */
  datatype MessageFault = EntryNotADict

  predicate IsTextBlock(b: Block)
  {
    b.Entry? && b.kind == Some("text")
  }

  predicate IsUser(m: Message)
  {
    m.Message? && m.role == Some("user")
  }

  /** `item.get("text", "")` */
  function TextOf(b: Block): string
    requires IsTextBlock(b)
  {
    match b.text
    case Some(t) => t
    case None => ""
  }

  /** The texts of the text items, in order (the `text_parts` list). */
  function BlockTexts(items: seq<Block>): (r: seq<string>)
    decreases |items|
    ensures |r| <= |items|
  {
    if items == [] then []
    else
      var init := BlockTexts(items[..|items| - 1]);
      var b := items[|items| - 1];
      if IsTextBlock(b) then init + [TextOf(b)] else init
  }

  /** List content is replaced by the space-join of its texts; any other content is returned as it is. */
  function Flatten(c: Content): (r: Content)
  {
    if c.Blocks? then Str(JoinWith(" ", BlockTexts(c.items))) else c
  }

  /** `msg.get("content", "")` */
  function ContentOf(m: Message): Content
    requires m.Message?
  {
    match m.content
    case Some(c) => c
    case None => Str("")
  }

  /** Entry `j` is not a dict and no user message comes after it, so the walk from the end reaches it. */
  predicate ReachesNonDict(messages: seq<Message>, j: int)
  {
    0 <= j < |messages| && messages[j].NotAMessage?
    && forall i :: j < i < |messages| ==> !IsUser(messages[i])
  }

  /**
   * `messages_to_content`: walking from the end, the flattened content of
   * the first user message met; the empty string when there is none; the
   * lookup's error on an entry that is not a dict.
   */
  function MessagesToContent(messages: seq<Message>): (r: Result<Content, MessageFault>)
    decreases |messages|
    ensures r.Success? ==> !r.value.Blocks?
    ensures (forall j :: 0 <= j < |messages| ==> messages[j].Message? && !IsUser(messages[j])) ==> r == Success(Str(""))
    ensures r.Failure? <==> exists j :: ReachesNonDict(messages, j)
  {
    if messages == [] then Success(Str(""))
    else
      var m := messages[|messages| - 1];
      if m.NotAMessage? then
        assert ReachesNonDict(messages, |messages| - 1);
        Failure(EntryNotADict)
      else if IsUser(m) then Success(Flatten(ContentOf(m)))
      else
        ReachesNonDictPast(messages, messages[..|messages| - 1]);
        MessagesToContent(messages[..|messages| - 1])
  }

  /** Past a last entry that is a dict but not a user message, the walk reaches the same entries as on the shorter list. */
  lemma ReachesNonDictPast(messages: seq<Message>, init: seq<Message>)
    requires messages != [] && messages[|messages| - 1].Message? && !IsUser(messages[|messages| - 1])
    requires init == messages[..|messages| - 1]
    ensures (exists j :: ReachesNonDict(messages, j)) <==> (exists j :: ReachesNonDict(init, j))
  {
    forall j
      ensures ReachesNonDict(messages, j) <==> ReachesNonDict(init, j)
    {
      if 0 <= j < |init| {
        assert messages[j] == init[j];
        assert forall i :: j < i < |init| ==> messages[i] == init[i];
      }
    }
    if j :| ReachesNonDict(messages, j) {
      assert ReachesNonDict(init, j);
    }
    if j :| ReachesNonDict(init, j) {
      assert ReachesNonDict(messages, j);
    }
  }

  /**
   * When message `k` is the last user message and every entry after it is a
   * dict, the result is its flattened content; earlier entries are never
   * looked at.
   */
  lemma {:induction false} LastUserMessageWins(messages: seq<Message>, k: nat)
    requires k < |messages| && IsUser(messages[k])
    requires forall j :: k < j < |messages| ==> messages[j].Message? && !IsUser(messages[j])
    ensures MessagesToContent(messages) == Success(Flatten(ContentOf(messages[k])))
    decreases |messages|
  {
    if k < |messages| - 1 {
      LastUserMessageWins(messages[..|messages| - 1], k);
    }
  }

  /** A message added after the conversation decides the result exactly when it is a user message. */
  lemma AppendMessage(messages: seq<Message>, m: Message)
    requires m.Message?
    ensures IsUser(m) ==> MessagesToContent(messages + [m]) == Success(Flatten(ContentOf(m)))
    ensures !IsUser(m) ==> MessagesToContent(messages + [m]) == MessagesToContent(messages)
  {
    assert (messages + [m])[..|messages|] == messages;
  }

  /** The texts of a list made only of text items are exactly those items' texts. */
  lemma {:induction false} AllTextBlocks(items: seq<Block>)
    requires forall i :: 0 <= i < |items| ==> IsTextBlock(items[i])
    ensures |BlockTexts(items)| == |items|
    ensures forall i :: 0 <= i < |items| ==> BlockTexts(items)[i] == TextOf(items[i])
    decreases |items|
  {
    if items != [] {
      AllTextBlocks(items[..|items| - 1]);
    }
  }

  /** Items that are not text items leave the joined text as it is. */
  lemma OtherBlocksIgnored(items: seq<Block>, b: Block)
    requires !IsTextBlock(b)
    ensures Flatten(Blocks(items + [b])) == Flatten(Blocks(items))
  {
    assert (items + [b])[..|items|] == items;
  }

  /**
   * The join is reversible: when no text contains a space, splitting the
   * flattened content on spaces gives back the texts, in order.
   */
  lemma FlattenSplits(items: seq<Block>)
    requires |BlockTexts(items)| >= 1
    requires forall i :: 0 <= i < |BlockTexts(items)| ==> ' ' !in BlockTexts(items)[i]
    ensures SplitOn(' ', Flatten(Blocks(items)).text) == BlockTexts(items)
  {
    SplitJoin(' ', BlockTexts(items));
  }

  /** What `_handle_chat_request` reads from the request body; an absent `messages` reads as the empty list. */
  datatype ChatRequest = ChatRequest(messages: seq<Message>, model: Option<string>, stream: Option<bool>)

  /**
   * What the handler does next: answer 400, fail on a bad entry, fail in the
   * request log, or call the upstream service with these values. The two
   * failures escape to the handler's `except Exception`, which answers 500.
   */
  datatype Plan =
    | Rejected(status: nat)
    | Unprocessable(fault: MessageFault)
    /** With `log_requests` on, the preview `content[:max_len]` raised on a content that is neither a string nor a list. */
    | PreviewFailed
    | Forward(content: Content, model: string, modelId: string, stream: bool)

  const DefaultModel: string := "claude-sonnet-4.5"

  /** The upstream `modelId` for a requested model: only "claude-sonnet-4" selects that model; everything else falls back to the default. */
  function ModelId(model: string): (r: string)
    ensures r == "claude-sonnet-4" <==> model == "claude-sonnet-4"
    ensures r == "claude-sonnet-4" || r == DefaultModel
  {
    if model in ["claude-sonnet-4.5", "claude-sonnet-4", "amazon-q"] then
      if model == "claude-sonnet-4.5" then "claude-sonnet-4.5"
      else if model == "claude-sonnet-4" then "claude-sonnet-4"
      else "claude-sonnet-4.5"
    else "claude-sonnet-4.5"
  }

  /**
   * The decisions of `_handle_chat_request` up to the upstream call, with
   * `logRequests` the `log_requests` switch (on unless configured off).
   */
  function PlanChatRequest(req: ChatRequest, logRequests: bool): (r: Plan)
    ensures r.Rejected? <==> req.messages == []
    ensures r.Rejected? ==> r.status == 400
    ensures r.Unprocessable? <==> req.messages != [] && MessagesToContent(req.messages).Failure?
    ensures r.Unprocessable? ==> MessagesToContent(req.messages) == Failure(r.fault)
    ensures r.PreviewFailed? <==> && logRequests && req.messages != []
                                  && MessagesToContent(req.messages).Success?
                                  && MessagesToContent(req.messages).value.OtherValue?
    ensures r.Forward? ==> MessagesToContent(req.messages) == Success(r.content) && !r.content.Blocks?
    ensures r.Forward? && logRequests ==> r.content.Str?
    ensures r.Forward? ==> r.modelId == ModelId(r.model)
    ensures r.Forward? && req.model.Some? ==> r.model == req.model.value
    ensures r.Forward? && req.model.None? ==> r.model == DefaultModel
    ensures r.Forward? ==> (r.stream <==> req.stream == Some(true))
  {
    var model := match req.model case Some(m) => m case None => DefaultModel;
    var stream := match req.stream case Some(s) => s case None => false;
    if req.messages == [] then Rejected(400)
    else
      match MessagesToContent(req.messages)
      case Failure(fault) => Unprocessable(fault)
      case Success(content) =>
        if logRequests && content.OtherValue? then PreviewFailed
        else Forward(content, model, ModelId(model), stream)
  }

  /**
   * A request whose last user message is message `k`, with only dicts after
   * it, is forwarded with that message's flattened content and the upstream
   * model chosen for the requested one, unless the request log is on and
   * that content is neither a string nor a list, which fails the preview.
   */
  lemma ForwardsLastUserMessage(req: ChatRequest, logRequests: bool, k: nat)
    requires k < |req.messages| && IsUser(req.messages[k])
    requires forall j :: k < j < |req.messages| ==> req.messages[j].Message? && !IsUser(req.messages[j])
    ensures var r := PlanChatRequest(req, logRequests);
      && (r.PreviewFailed? <==> logRequests && ContentOf(req.messages[k]).OtherValue?)
      && (!r.PreviewFailed? ==> r.Forward?)
      && (r.Forward? ==> r.content == Flatten(ContentOf(req.messages[k])))
      && (r.Forward? ==> r.modelId == ModelId(if req.model.Some? then req.model.value else DefaultModel))
  {
    LastUserMessageWins(req.messages, k);
  }
}

=== FILE: scanning.dfy ===
/**
 * The brace/quote/escape state machine that both object scanners of main.py
 * run one character at a time: `extract_json_from_buffer` and
 * `OpenAIConverter.parse_event_stream` apply the same three rules.
 */
module Scanning {

  /** The loop variables `depth`, `in_string` and `escape_next`. */
  datatype Scanner = Scanner(depth: int, inString: bool, escapeNext: bool)

  /** The state both scanners start from. */
  const Fresh: Scanner := Scanner(0, false, false)

  /**
   * One character. A character right after a backslash only clears the
   * escape flag; a backslash sets it (inside or outside a string); an
   * unescaped quote toggles the string flag; outside a string an opening
   * brace raises the depth by one and a closing brace lowers it by one.
   */
  function Step(st: Scanner, c: char): (r: Scanner)
    ensures st.escapeNext ==> r == st.(escapeNext := false)
    ensures !st.escapeNext && c == '\\' ==> r == st.(escapeNext := true)
    ensures !st.escapeNext && c != '\\' ==> !r.escapeNext
    ensures r.inString != st.inString <==> !st.escapeNext && c == '"'
    ensures r.depth != st.depth ==> !st.escapeNext && !st.inString && (c == '{' || c == '}')
    ensures r.depth == st.depth + 1 || r.depth == st.depth || r.depth == st.depth - 1
    ensures r.depth < st.depth <==> !st.escapeNext && !st.inString && c == '}'
    ensures r.depth > st.depth <==> !st.escapeNext && !st.inString && c == '{'
  {
    if st.escapeNext then st.(escapeNext := false)
    else if c == '\\' then st.(escapeNext := true)
    else
      var inString := if c == '"' then !st.inString else st.inString;
      if inString then st.(inString := inString)
      else if c == '{' then Scanner(st.depth + 1, false, false)
      else if c == '}' then Scanner(st.depth - 1, false, false)
      else st.(inString := inString)
  }

  /** The state after scanning all of `s` from `st`. */
  function Run(st: Scanner, s: string): Scanner
    decreases |s|
  {
    if s == [] then st else Run(Step(st, s[0]), s[1..])
  }

  /** Scanning is restartable: scanning `a + b` is scanning `a`, then `b` from where `a` left off. */
  lemma {:induction false} RunAppend(st: Scanner, a: string, b: string)
    ensures Run(st, a + b) == Run(Run(st, a), b)
    decreases |a|
  {
    if a != [] {
      assert (a + b)[0] == a[0];
      assert (a + b)[1..] == a[1..] + b;
      RunAppend(Step(st, a[0]), a[1..], b);
    } else {
      assert a + b == b;
    }
  }

  /** The state after `s[..i + 1]` is one step on from the state after `s[..i]`. */
  lemma RunPrefixStep(st: Scanner, s: string, i: nat)
    requires i < |s|
    ensures Run(st, s[..i + 1]) == Step(Run(st, s[..i]), s[i])
  {
    assert s[..i + 1] == s[..i] + [s[i]];
    RunAppend(st, s[..i], [s[i]]);
  }

  /**
   * The body of a JSON string as an encoder writes it: every quote and
   * every backslash is escaped, so the body is a run of plain characters
   * and backslash pairs.
   */
  ghost predicate QuotedBody(v: string)
    decreases |v|
  {
    v == []
    || (v[0] != '"' && v[0] != '\\' && QuotedBody(v[1..]))
    || (|v| >= 2 && v[0] == '\\' && QuotedBody(v[2..]))
  }

  /** Escape every quote and backslash of `text`, as `json.dumps` does for those two characters. */
  function Escape(text: string): (v: string)
    decreases |text|
  {
    if text == [] then []
    else if text[0] == '"' || text[0] == '\\' then ['\\', text[0]] + Escape(text[1..])
    else [text[0]] + Escape(text[1..])
  }

  lemma {:induction false} EscapeIsQuotedBody(text: string)
    ensures QuotedBody(Escape(text))
    decreases |text|
  {
    if text != [] {
      EscapeIsQuotedBody(text[1..]);
      var v := Escape(text);
      if text[0] == '"' || text[0] == '\\' {
        assert v[2..] == Escape(text[1..]);
      } else {
        assert v[1..] == Escape(text[1..]);
      }
    }
  }

  /**
   * Inside a string, a well-formed body never changes the depth and never
   * leaves the string, at any point of the body, and ends with no escape
   * pending: a `{`, a `}` or an escaped `"` in a value is inert.
   */
  lemma {:induction false} QuotedBodyInert(d: int, v: string, j: nat)
    requires QuotedBody(v) && j <= |v|
    ensures Run(Scanner(d, true, false), v[..j]).inString
    ensures Run(Scanner(d, true, false), v[..j]).depth == d
    ensures Run(Scanner(d, true, false), v) == Scanner(d, true, false)
    decreases |v|
  {
    var st := Scanner(d, true, false);
    if v != [] {
      if v[0] != '"' && v[0] != '\\' && QuotedBody(v[1..]) {
        assert Step(st, v[0]) == st;
        QuotedBodyInert(d, v[1..], if j == 0 then 0 else j - 1);
        if j > 0 {
          assert v[..j] == [v[0]] + v[1..][..j - 1];
          RunAppend(st, [v[0]], v[1..][..j - 1]);
        }
        assert v == [v[0]] + v[1..];
        RunAppend(st, [v[0]], v[1..]);
      } else {
        var esc := Scanner(d, true, true);
        assert Step(st, v[0]) == esc;
        assert Step(esc, v[1]) == st;
        QuotedBodyInert(d, v[2..], if j <= 1 then 0 else j - 2);
        if j == 1 {
          assert v[..1] == [v[0]];
        } else if j >= 2 {
          assert v[..j] == [v[0], v[1]] + v[2..][..j - 2];
          RunAppend(st, [v[0], v[1]], v[2..][..j - 2]);
        }
        assert v == [v[0], v[1]] + v[2..];
        RunAppend(st, [v[0], v[1]], v[2..]);
      }
    }
  }

  /** Characters other than a quote or a backslash leave a scanner that is inside a string as it is. */
  lemma RunPlain(st: Scanner, w: string)
    requires st.inString && !st.escapeNext
    requires forall i :: 0 <= i < |w| ==> w[i] != '"' && w[i] != '\\'
    ensures Run(st, w) == st
    decreases |w|
  {
    if w != [] { RunPlain(st, w[1..]); }
  }
}

=== FILE: streaming.dfy ===
/**
 * The `generate()` loop of `_handle_chat_request` (main.py): read the
 * upstream chunks into a buffer capped at `BUFFER_MAX_SIZE` characters,
 * extract every complete content object, and emit one frame per fragment
 * between the fixed opening and closing frames of the chosen format.
 */
module Streaming {
  import opened Wrappers
  import opened Text
  import opened Decoding
  import opened Frames
  import Extractor
  import Scanning

  /** The `buffer_max_size` used when the configuration does not set one. */
  const DefaultBufferMaxSize: int := 10240

  /** Python's `s[i:]` for any integer `i`: from index `i`, counted from the end when negative. */
  function SliceFrom(s: string, i: int): (r: string)
    ensures |r| <= |s| && r == s[|s| - |r|..]
    ensures 0 <= i <= |s| ==> |r| == |s| - i
    ensures -|s| <= i < 0 ==> |r| == -i
  {
    if i >= 0 then (if i <= |s| then s[i..] else [])
    else if -i <= |s| then s[|s| + i..] else s
  }

  /**
   * The cap check: a buffer longer than `cap` is replaced by `buffer[-cap:]`.
   * For a positive cap that is the trailing window of `cap` characters; a
   * cap of zero keeps everything, since `buffer[-0:]` is the whole buffer;
   * a negative cap drops the first `-cap` characters.
   */
  function Cap(buffer: string, cap: int): (r: string)
    ensures |r| <= |buffer| && r == buffer[|buffer| - |r|..]
    ensures |buffer| <= cap ==> r == buffer
    ensures cap > 0 ==> |r| == if |buffer| <= cap then |buffer| else cap
    ensures cap == 0 ==> r == buffer
    ensures cap < 0 ==> |r| == if |buffer| <= -cap then 0 else |buffer| + cap
  {
    if |buffer| > cap then SliceFrom(buffer, -cap) else buffer
  }

  /**
   * The extraction side of the loop after the given chunks: every span
   * extracted, in order, and the buffer left over. Empty chunks are
   * skipped.
   */
  function Pump(chunks: seq<string>, cap: int): (r: (seq<string>, string))
    decreases |chunks|
    ensures cap > 0 ==> |r.1| <= cap
  {
    if chunks == [] then ([], "")
    else
      var (spans, buffer) := Pump(chunks[..|chunks| - 1], cap);
      var chunk := chunks[|chunks| - 1];
      if chunk == [] then (spans, buffer)
      else
        var (more, left) := Extractor.Drain(Cap(buffer + chunk, cap));
        (spans + more, left)
  }

  /** The frame of one fragment. */
  function Fragment(format: Format, model: string, text: string): Frame
  {
    CreateStreamChunk(text, model, Content, format)
  }

  /**
   * The frames emitted for the extracted spans, and whether a `content`
   * lookup raised, which ends the stream with an error frame. Spans that do
   * not decode, or have no `content`, emit nothing.
   */
  function EmitSpans(format: Format, model: string, spans: seq<string>, decode: Decoder): (r: (seq<Frame>, bool))
    decreases |spans|
  {
    if spans == [] then ([], false)
    else
      var (frames, stopped) := EmitSpans(format, model, spans[..|spans| - 1], decode);
      if stopped then (frames, true) else EmitOne(format, model, frames, decode(spans[|spans| - 1]))
  }

  /** The frames after one more span has been decoded as `d`. */
  function EmitOne(format: Format, model: string, frames: seq<Frame>, d: Decoded): (r: (seq<Frame>, bool))
  {
    match d
    case LookupFails => (frames + [StreamError(LookupRaised)], true)
    case Parsed(Some(text)) => (frames + [Fragment(format, model, text)], false)
    case _ => (frames, false)
  }

  function Opening(format: Format, model: string): seq<Frame>
  {
    if format == Anthropic then
      [CreateStreamChunk("", model, Start, Anthropic), CreateStreamChunk("", model, ContentStart, Anthropic)]
    else []
  }

  function Closing(format: Format, model: string): seq<Frame>
  {
    if format == Anthropic then
      [CreateStreamChunk("", model, ContentEnd, Anthropic), CreateStreamChunk("", model, End, Anthropic)]
    else [CreateStreamChunk("", model, End, OpenAI), Done]
  }

  /** The upstream body: the chunks it delivers, and the message of the error that cut it short, if one did. */
  datatype Upstream = Upstream(chunks: seq<string>, broken: Option<string>)

  /** Every frame `generate()` yields, in order. */
  function StreamFrames(format: Format, model: string, upstream: Upstream, cap: int, decode: Decoder): seq<Frame>
  {
    var (body, stopped) := EmitSpans(format, model, Pump(upstream.chunks, cap).0, decode);
    Opening(format, model) + body
      + if stopped then []
        else match upstream.broken
          case Some(message) => [StreamError(UpstreamBroken(message))]
          case None => Closing(format, model)
  }

  /** The generator, with the frames it yields collected in order. */
  method Generate(format: Format, model: string, upstream: Upstream, cap: int, decode: Decoder)
    returns (frames: seq<Frame>)
    ensures frames == StreamFrames(format, model, upstream, cap, decode)
  {
    var chunks := upstream.chunks;
    frames := [];
    if format == Anthropic {
      frames := frames + [CreateStreamChunk("", model, Start, Anthropic)];
      frames := frames + [CreateStreamChunk("", model, ContentStart, Anthropic)];
    }
    ghost var opening := frames;
    assert opening == Opening(format, model);
    var buffer := "";
    ghost var spans: seq<string> := [];
    ghost var body: seq<Frame> := [];
    for i := 0 to |chunks|
      invariant Pump(chunks[..i], cap) == (spans, buffer)
      invariant frames == opening + body
      invariant EmitSpans(format, model, spans, decode) == (body, false)
    {
      var emitted, raised;
      ghost var done;
      emitted, buffer, raised, done := FeedChunk(format, model, chunks, i, buffer, cap, decode, spans, body);
      AppendAssoc(opening, body, emitted);
      frames := frames + emitted;
      body := body + emitted;
      spans := spans + done;
      if raised {
        StoppedStream(format, model, upstream, cap, decode, spans);
        return;
      }
    }
    assert chunks[..|chunks|] == chunks;
    FinishedStream(format, model, upstream, cap, decode);
    if upstream.broken.Some? {
      frames := frames + [StreamError(UpstreamBroken(upstream.broken.value))];
      return;
    }
    ghost var before := frames;
    if format == Anthropic {
      frames := frames + [CreateStreamChunk("", model, ContentEnd, Anthropic)];
      frames := frames + [CreateStreamChunk("", model, End, Anthropic)];
    } else {
      frames := frames + [CreateStreamChunk("", model, End, OpenAI)];
      frames := frames + [Done];
    }
    assert frames == before + Closing(format, model);
  }

  /**
   * One pass of the generator's `for` loop: append a non-empty chunk,
   * apply the cap, and drain the buffer. Either the loop state moves on to
   * the next chunk, or a lookup raised and the spans drained so far are a
   * prefix of all the spans the upstream yields.
   */
  method FeedChunk(format: Format, model: string, chunks: seq<string>, i: nat, buffer: string, cap: int, decode: Decoder,
                   ghost spans: seq<string>, ghost body: seq<Frame>)
    returns (emitted: seq<Frame>, left: string, raised: bool, ghost done: seq<string>)
    requires i < |chunks|
    requires Pump(chunks[..i], cap) == (spans, buffer)
    requires EmitSpans(format, model, spans, decode) == (body, false)
    ensures EmitSpans(format, model, spans + done, decode) == (body + emitted, raised)
    ensures !raised ==> Pump(chunks[..i + 1], cap) == (spans + done, left)
    ensures raised ==> spans + done <= Pump(chunks, cap).0
  {
    var chunk := chunks[i];
    PumpStep(chunks, cap, i);
    if chunk == [] {
      assert spans + [] == spans && body + [] == body;
      return [], buffer, false, [];
    }
    var capped := buffer + chunk;
    if |capped| > cap {
      capped := SliceFrom(capped, -cap);
    }
    emitted, left, raised, done := DrainBuffer(format, model, capped, decode, spans, body);
    if raised {
      PrefixOfPump(chunks, cap, i, spans, done, capped);
    }
  }

  /**
   * The inner `while` of the generator: extract objects from the buffer
   * until none is left, emitting a frame for each fragment, or stop at the
   * first lookup that raises. `done` are the spans extracted, which follow
   * the `spans` extracted before; `emitted` are the frames they add.
   */
  method DrainBuffer(format: Format, model: string, buffer: string, decode: Decoder,
                     ghost spans: seq<string>, ghost body: seq<Frame>)
    returns (emitted: seq<Frame>, left: string, raised: bool, ghost done: seq<string>)
    requires EmitSpans(format, model, spans, decode) == (body, false)
    ensures done <= Extractor.Drain(buffer).0
    ensures EmitSpans(format, model, spans + done, decode) == (body + emitted, raised)
    ensures !raised ==> done == Extractor.Drain(buffer).0 && left == Extractor.Drain(buffer).1
  {
    emitted, left, raised, done := [], buffer, false, [];
    assert spans + done == spans && body + emitted == body;
    while true
      invariant Extractor.Drain(buffer).0 == done + Extractor.Drain(left).0
      invariant Extractor.Drain(buffer).1 == Extractor.Drain(left).1
      invariant EmitSpans(format, model, spans + done, decode) == (body + emitted, false)
      decreases |left|
    {
      ghost var b := left;
      var json;
      json, left := Extractor.ExtractJsonFromBuffer(left);
      Extractor.DrainUnfold(b);
      if json.None? {
        break;
      }
      AppendAssoc(done, [json.value], Extractor.Drain(left).0);
      EmitSnoc(format, model, spans + done, json.value, decode);
      assert spans + (done + [json.value]) == (spans + done) + [json.value];
      done := done + [json.value];
      match decode(json.value)
      case LookupFails =>
        AppendAssoc(body, emitted, [StreamError(LookupRaised)]);
        emitted := emitted + [StreamError(LookupRaised)];
        raised := true;
        assert done <= Extractor.Drain(buffer).0;
        return;
      case Parsed(content) =>
        if content.Some? {
          AppendAssoc(body, emitted, [Fragment(format, model, content.value)]);
          if format == Anthropic {
            emitted := emitted + [CreateStreamChunk(content.value, model, Content, Anthropic)];
          } else {
            emitted := emitted + [CreateStreamChunk(content.value, model, Content, OpenAI)];
          }
        }
      case Malformed =>
    }
    assert done + [] == done;
  }

  /** One more span: its frame, if it has a `content`, or the error frame, if the lookup raises. */
  lemma EmitSnoc(format: Format, model: string, spans: seq<string>, span: string, decode: Decoder)
    requires !EmitSpans(format, model, spans, decode).1
    ensures EmitSpans(format, model, spans + [span], decode)
            == EmitOne(format, model, EmitSpans(format, model, spans, decode).0, decode(span))
  {
    assert (spans + [span])[..|spans|] == spans;
  }

  lemma FinishedStream(format: Format, model: string, upstream: Upstream, cap: int, decode: Decoder)
    requires !EmitSpans(format, model, Pump(upstream.chunks, cap).0, decode).1
    ensures var body := EmitSpans(format, model, Pump(upstream.chunks, cap).0, decode).0;
      StreamFrames(format, model, upstream, cap, decode)
      == Opening(format, model) + body
         + if upstream.broken.Some? then [StreamError(UpstreamBroken(upstream.broken.value))] else Closing(format, model)
  {
  }

  /** What one more chunk adds to the extraction. */
  lemma PumpStep(chunks: seq<string>, cap: int, i: nat)
    requires i < |chunks|
    ensures chunks[i] == [] ==> Pump(chunks[..i + 1], cap) == Pump(chunks[..i], cap)
    ensures chunks[i] != [] ==>
      var drained := Extractor.Drain(Cap(Pump(chunks[..i], cap).1 + chunks[i], cap));
      Pump(chunks[..i + 1], cap) == (Pump(chunks[..i], cap).0 + drained.0, drained.1)
  {
    assert chunks[..i + 1][..i] == chunks[..i];
  }

  /** The spans extracted after some chunks are a prefix of those extracted after all of them. */
  lemma {:induction false} PumpPrefix(chunks: seq<string>, cap: int, j: nat)
    requires j <= |chunks|
    ensures Pump(chunks[..j], cap).0 <= Pump(chunks, cap).0
    decreases |chunks| - j
  {
    if j < |chunks| {
      PumpPrefix(chunks, cap, j + 1);
      assert chunks[..j + 1][..j] == chunks[..j];
    } else {
      assert chunks[..j] == chunks;
    }
  }

  lemma PrefixOfPump(chunks: seq<string>, cap: int, i: nat, prev: seq<string>, done: seq<string>, capped: string)
    requires i < |chunks| && chunks[i] != []
    requires prev == Pump(chunks[..i], cap).0
    requires capped == Cap(Pump(chunks[..i], cap).1 + chunks[i], cap)
    requires done <= Extractor.Drain(capped).0
    ensures prev + done <= Pump(chunks, cap).0
  {
    assert chunks[..i + 1][..i] == chunks[..i];
    assert Pump(chunks[..i + 1], cap).0 == prev + Extractor.Drain(capped).0;
    PumpPrefix(chunks, cap, i + 1);
  }

  /** A raised lookup is final: later spans, and the way the upstream ends, change nothing. */
  lemma {:induction false} EmitStoppedStays(format: Format, model: string, a: seq<string>, b: seq<string>, decode: Decoder)
    requires EmitSpans(format, model, a, decode).1
    ensures EmitSpans(format, model, a + b, decode) == EmitSpans(format, model, a, decode)
    decreases |b|
  {
    if b == [] {
      assert a + b == a;
    } else {
      EmitStoppedStays(format, model, a, b[..|b| - 1], decode);
      assert (a + b)[..|a + b| - 1] == a + b[..|b| - 1];
    }
  }

  lemma StoppedStream(format: Format, model: string, upstream: Upstream, cap: int, decode: Decoder, spans: seq<string>)
    requires spans <= Pump(upstream.chunks, cap).0
    requires EmitSpans(format, model, spans, decode).1
    ensures StreamFrames(format, model, upstream, cap, decode)
            == Opening(format, model) + EmitSpans(format, model, spans, decode).0
  {
    var all := Pump(upstream.chunks, cap).0;
    assert all == spans + all[|spans|..];
    EmitStoppedStays(format, model, spans, all[|spans|..], decode);
  }

  /**
   * With the default `buffer_max_size`, the buffer kept between chunks never
   * exceeds 10240 characters, and a body of at most that many characters is
   * read exactly as if it had arrived in one piece.
   */
  lemma DefaultBufferBehaviour(chunks: seq<string>)
    ensures |Pump(chunks, DefaultBufferMaxSize).1| <= 10240
    ensures |Concat(chunks)| <= 10240 ==> Pump(chunks, DefaultBufferMaxSize) == Extractor.Drain(Concat(chunks))
  {
    if |Concat(chunks)| <= 10240 {
      PumpMatchesWhole(chunks, DefaultBufferMaxSize);
    }
  }

  /**
   * Chunk boundaries do not matter while the cap is never reached: reading
   * the chunks one by one extracts the same spans, in the same order, and
   * leaves the same buffer as draining their concatenation at once.
   */
  lemma {:induction false} PumpMatchesWhole(chunks: seq<string>, cap: int)
    requires |Concat(chunks)| <= cap
    ensures Pump(chunks, cap) == Extractor.Drain(Concat(chunks))
    decreases |chunks|
  {
    if chunks == [] {
      Extractor.DrainUnfold("");
      assert Find("", Extractor.Pattern) == -1;
    } else {
      var init, chunk := chunks[..|chunks| - 1], chunks[|chunks| - 1];
      assert Concat(chunks) == Concat(init) + chunk;
      PumpMatchesWhole(init, cap);
      var whole := Extractor.Drain(Concat(init));
      if chunk == [] {
        assert Concat(init) + chunk == Concat(init);
      } else {
        assert |whole.1 + chunk| <= cap;
        assert Cap(whole.1 + chunk, cap) == whole.1 + chunk;
        Extractor.DrainAppend(Concat(init), chunk);
      }
    }
  }

  /** The contents of the spans that decode with one, in order. */
  function Texts(spans: seq<string>, decode: Decoder): (r: seq<string>)
    decreases |spans|
    ensures |r| <= |spans|
  {
    if spans == [] then []
    else
      var init := Texts(spans[..|spans| - 1], decode);
      match decode(spans[|spans| - 1])
      case Parsed(Some(text)) => init + [text]
      case _ => init
  }

  predicate NoLookupRaises(spans: seq<string>, decode: Decoder)
  {
    forall i :: 0 <= i < |spans| ==> !decode(spans[i]).LookupFails?
  }

  /** One fragment frame per text, in order. */
  function FragmentFrames(format: Format, model: string, texts: seq<string>): (r: seq<Frame>)
    decreases |texts|
    ensures |r| == |texts|
    ensures forall i :: 0 <= i < |texts| ==> r[i] == Fragment(format, model, texts[i])
  {
    if texts == [] then []
    else FragmentFrames(format, model, texts[..|texts| - 1]) + [Fragment(format, model, texts[|texts| - 1])]
  }

  /** Without a raising lookup, every span with a content yields one fragment frame, in order. */
  lemma {:induction false} EmitWithoutRaise(format: Format, model: string, spans: seq<string>, decode: Decoder)
    requires NoLookupRaises(spans, decode)
    ensures EmitSpans(format, model, spans, decode) == (FragmentFrames(format, model, Texts(spans, decode)), false)
    decreases |spans|
  {
    if spans != [] {
      var init := spans[..|spans| - 1];
      EmitWithoutRaise(format, model, init, decode);
      match decode(spans[|spans| - 1])
      case Parsed(Some(text)) =>
        var texts := Texts(init, decode);
        assert (texts + [text])[..|texts|] == texts;
      case _ =>
    }
  }

  /**
   * The Anthropic stream of an upstream that ends normally, with no raising
   * lookup: `message_start`, `content_block_start`, one
   * `content_block_delta` per fragment in extraction order,
   * `content_block_stop`, `message_delta`; there is no `message_stop`.
   */
  lemma AnthropicStreamShape(model: string, upstream: Upstream, cap: int, decode: Decoder)
    requires upstream.broken.None?
    requires NoLookupRaises(Pump(upstream.chunks, cap).0, decode)
    ensures var texts, frames := Texts(Pump(upstream.chunks, cap).0, decode), StreamFrames(Anthropic, model, upstream, cap, decode);
      && |frames| == |texts| + 4
      && frames[0] == MessageStart(model) && frames[1] == ContentBlockStart
      && (forall i :: 0 <= i < |texts| ==> frames[i + 2] == ContentBlockDelta(texts[i]))
      && frames[|texts| + 2] == ContentBlockStop && frames[|texts| + 3] == MessageDelta
  {
    NormalEnd(Anthropic, model, upstream, cap, decode);
    AnthropicFrames(model, Texts(Pump(upstream.chunks, cap).0, decode), StreamFrames(Anthropic, model, upstream, cap, decode));
  }

  /** An upstream that ends normally, with no raising lookup, yields the opening, one frame per fragment and the closing. */
  lemma NormalEnd(format: Format, model: string, upstream: Upstream, cap: int, decode: Decoder)
    requires upstream.broken.None?
    requires NoLookupRaises(Pump(upstream.chunks, cap).0, decode)
    ensures StreamFrames(format, model, upstream, cap, decode)
            == Opening(format, model) + FragmentFrames(format, model, Texts(Pump(upstream.chunks, cap).0, decode)) + Closing(format, model)
  {
    EmitWithoutRaise(format, model, Pump(upstream.chunks, cap).0, decode);
  }

  lemma AnthropicFrames(model: string, texts: seq<string>, frames: seq<Frame>)
    requires frames == Opening(Anthropic, model) + FragmentFrames(Anthropic, model, texts) + Closing(Anthropic, model)
    ensures && |frames| == |texts| + 4
      && frames[0] == MessageStart(model) && frames[1] == ContentBlockStart
      && (forall i :: 0 <= i < |texts| ==> frames[i + 2] == ContentBlockDelta(texts[i]))
      && frames[|texts| + 2] == ContentBlockStop && frames[|texts| + 3] == MessageDelta
  {
    var body := FragmentFrames(Anthropic, model, texts);
    assert Opening(Anthropic, model) == [MessageStart(model), ContentBlockStart];
    assert Closing(Anthropic, model) == [ContentBlockStop, MessageDelta];
    Bracketed(MessageStart(model), ContentBlockStart, body, ContentBlockStop, MessageDelta);
  }

  lemma Bracketed<T>(a: T, b: T, body: seq<T>, c: T, d: T)
    ensures var s := [a, b] + body + [c, d];
      && |s| == |body| + 4 && s[0] == a && s[1] == b
      && (forall i :: 0 <= i < |body| ==> s[i + 2] == body[i])
      && s[|body| + 2] == c && s[|body| + 3] == d
  {
  }

  /**
   * The OpenAI stream of an upstream that ends normally, with no raising
   * lookup: one content chunk per fragment in extraction order (there is no
   * start chunk), one empty chunk finishing with "stop", then `[DONE]`.
   */
  lemma OpenAIStreamShape(model: string, upstream: Upstream, cap: int, decode: Decoder)
    requires upstream.broken.None?
    requires NoLookupRaises(Pump(upstream.chunks, cap).0, decode)
    ensures var texts, frames := Texts(Pump(upstream.chunks, cap).0, decode), StreamFrames(OpenAI, model, upstream, cap, decode);
      && |frames| == |texts| + 2
      && (forall i :: 0 <= i < |texts| ==> frames[i] == ChatChunk(model, Some(texts[i]), false))
      && frames[|texts|] == ChatChunk(model, None, true) && frames[|texts| + 1] == Done
  {
    NormalEnd(OpenAI, model, upstream, cap, decode);
    OpenAIFrames(model, Texts(Pump(upstream.chunks, cap).0, decode), StreamFrames(OpenAI, model, upstream, cap, decode));
  }

  lemma OpenAIFrames(model: string, texts: seq<string>, frames: seq<Frame>)
    requires frames == Opening(OpenAI, model) + FragmentFrames(OpenAI, model, texts) + Closing(OpenAI, model)
    ensures && |frames| == |texts| + 2
      && (forall i :: 0 <= i < |texts| ==> frames[i] == ChatChunk(model, Some(texts[i]), false))
      && frames[|texts|] == ChatChunk(model, None, true) && frames[|texts| + 1] == Done
  {
    var body := FragmentFrames(OpenAI, model, texts);
    assert Opening(OpenAI, model) == [];
    assert Closing(OpenAI, model) == [ChatChunk(model, None, true), Done];
    assert frames == body + [ChatChunk(model, None, true), Done];
  }

  /**
   * An upstream that breaks ends the stream with one error frame after the
   * fragments, in place of the closing frames.
   */
  lemma BrokenUpstreamShape(format: Format, model: string, upstream: Upstream, cap: int, decode: Decoder)
    requires upstream.broken.Some?
    requires NoLookupRaises(Pump(upstream.chunks, cap).0, decode)
    ensures var frames := StreamFrames(format, model, upstream, cap, decode);
      && |frames| == |Opening(format, model)| + |Texts(Pump(upstream.chunks, cap).0, decode)| + 1
      && frames[|frames| - 1] == StreamError(UpstreamBroken(upstream.broken.value))
  {
    EmitWithoutRaise(format, model, Pump(upstream.chunks, cap).0, decode);
  }

  /**
   * However the upstream cuts a body of well-formed content objects into
   * chunks, as long as the whole body fits under the cap, the loop extracts
   * exactly those objects, in order, and leaves nothing over.
   */
  lemma ChunkedContentObjects(chunks: seq<string>, cap: int, vs: seq<string>)
    requires Concat(chunks) == Extractor.ContentObjects(vs) && |Concat(chunks)| <= cap
    requires forall i :: 0 <= i < |vs| ==> Scanning.QuotedBody(vs[i])
    ensures Pump(chunks, cap) == (Extractor.ContentObjectList(vs), "")
  {
    PumpMatchesWhole(chunks, cap);
    assert Extractor.ContentObjects(vs) + "" == Extractor.ContentObjects(vs);
    Extractor.DrainContentObjects(vs, "");
    Extractor.DrainUnfold("");
    assert Find("", Extractor.Pattern) == -1;
    assert Extractor.ContentObjectList(vs) + [] == Extractor.ContentObjectList(vs);
  }

  lemma {:induction false} TextsOfContentObjects(vs: seq<string>, texts: seq<string>, decode: Decoder)
    requires |vs| == |texts|
    requires forall i :: 0 <= i < |vs| ==> decode(Extractor.ContentObject(vs[i])) == Parsed(Some(texts[i]))
    ensures Texts(Extractor.ContentObjectList(vs), decode) == texts
    ensures NoLookupRaises(Extractor.ContentObjectList(vs), decode)
    decreases |vs|
  {
    if vs != [] {
      var n := |vs| - 1;
      TextsOfContentObjects(vs[..n], texts[..n], decode);
      assert Extractor.ContentObjectList(vs)[..n] == Extractor.ContentObjectList(vs[..n]);
      assert texts[..n] + [texts[n]] == texts;
    }
  }

  /**
   * The OpenAI stream of such a body carries one content chunk per object,
   * with its text, whatever the chunk boundaries.
   */
  lemma ChunkedOpenAIStream(model: string, chunks: seq<string>, cap: int, vs: seq<string>, texts: seq<string>, decode: Decoder)
    requires Concat(chunks) == Extractor.ContentObjects(vs) && |Concat(chunks)| <= cap
    requires forall i :: 0 <= i < |vs| ==> Scanning.QuotedBody(vs[i])
    requires |vs| == |texts|
    requires forall i :: 0 <= i < |vs| ==> decode(Extractor.ContentObject(vs[i])) == Parsed(Some(texts[i]))
    ensures var frames := StreamFrames(OpenAI, model, Upstream(chunks, None), cap, decode);
      && |frames| == |texts| + 2
      && (forall i :: 0 <= i < |texts| ==> frames[i] == ChatChunk(model, Some(texts[i]), false))
      && frames[|texts|] == ChatChunk(model, None, true) && frames[|texts| + 1] == Done
  {
    ChunkedContentObjects(chunks, cap, vs);
    TextsOfContentObjects(vs, texts, decode);
    OpenAIStreamShape(model, Upstream(chunks, None), cap, decode);
  }
}

=== FILE: text.dfy ===
/**
 * The few Python string operations the relay relies on: `str.find`,
 * `str.strip` and `sep.join`, and `''.join` for concatenation.
 */
module Text {

  /** `pat` occurs in `s` starting at index `i`. */
  predicate OccursAt(s: string, pat: string, i: nat)
  {
    i + |pat| <= |s| && s[i..i + |pat|] == pat
  }

  /** Python's `s.find(pat)`: the first index where `pat` occurs, or -1. */
  function Find(s: string, pat: string): (r: int)
    ensures -1 <= r <= |s|
    ensures r == -1 ==> forall i :: 0 <= i <= |s| ==> !OccursAt(s, pat, i)
    ensures r >= 0 ==> OccursAt(s, pat, r) && forall i :: 0 <= i < r ==> !OccursAt(s, pat, i)
  {
    FindFrom(s, pat, 0)
  }

  function FindFrom(s: string, pat: string, k: nat): (r: int)
    requires k <= |s|
    requires forall i :: 0 <= i < k ==> !OccursAt(s, pat, i)
    decreases |s| - k
    ensures -1 <= r <= |s|
    ensures r == -1 ==> forall i :: 0 <= i <= |s| ==> !OccursAt(s, pat, i)
    ensures r >= 0 ==> OccursAt(s, pat, r) && forall i :: 0 <= i < r ==> !OccursAt(s, pat, i)
  {
    if OccursAt(s, pat, k) then k
    else if k == |s| then -1
    else FindFrom(s, pat, k + 1)
  }

  /** An occurrence found in `s` is still the first one once more text is appended. */
  lemma FindAppend(s: string, more: string, pat: string)
    requires Find(s, pat) >= 0
    ensures Find(s + more, pat) == Find(s, pat)
  {
    var r := Find(s, pat);
    assert (s + more)[r..r + |pat|] == s[r..r + |pat|];
    assert OccursAt(s + more, pat, r);
    var r' := Find(s + more, pat);
    if r' < r {
      assert r' + |pat| <= |s|;
      assert (s + more)[r'..r' + |pat|] == s[r'..r' + |pat|];
      assert OccursAt(s, pat, r');
    }
  }

  /**
   * The characters `str.strip()` removes: the ASCII whitespace and the
   * separators that Python's `str.isspace` accepts below U+0100.
   */
  predicate IsSpace(c: char)
  {
    c == ' ' || c == '\t' || c == '\n' || c == '\r' || c == '\U{000B}' || c == '\U{000C}'
    || c == '\U{001C}' || c == '\U{001D}' || c == '\U{001E}' || c == '\U{001F}'
    || c == '\U{0085}' || c == '\U{00A0}'
  }

  predicate AllSpace(s: string)
  {
    forall k :: 0 <= k < |s| ==> IsSpace(s[k])
  }

  /** Index of the first character of `s` at or after `i` that is not whitespace, or `|s|`. */
  function LeadFrom(s: string, i: nat): (n: nat)
    requires i <= |s|
    decreases |s| - i
    ensures i <= n <= |s|
    ensures forall k :: i <= k < n ==> IsSpace(s[k])
    ensures n < |s| ==> !IsSpace(s[n])
  {
    if i == |s| || !IsSpace(s[i]) then i else LeadFrom(s, i + 1)
  }

  /** One past the last character of `s[..j]` that is not whitespace, or 0. */
  function TrailTo(s: string, j: nat): (n: nat)
    requires j <= |s|
    ensures n <= j
    ensures forall k :: n <= k < j ==> IsSpace(s[k])
    ensures n > 0 ==> !IsSpace(s[n - 1])
  {
    if j == 0 || !IsSpace(s[j - 1]) then j else TrailTo(s, j - 1)
  }

  /**
   * Python's `s.strip()`: the middle of `s` left once the whitespace on both
   * ends is removed. It is empty exactly when `s` is all whitespace, and it
   * is `s` itself when `s` neither starts nor ends with whitespace.
   */
  function Strip(s: string): (r: string)
    ensures LeadFrom(s, 0) + |r| <= |s| && r == s[LeadFrom(s, 0)..LeadFrom(s, 0) + |r|]
    ensures forall k :: 0 <= k < |s| && !(LeadFrom(s, 0) <= k < LeadFrom(s, 0) + |r|) ==> IsSpace(s[k])
    ensures r == [] <==> AllSpace(s)
    ensures r != [] ==> !IsSpace(r[0]) && !IsSpace(r[|r| - 1])
    ensures s != [] && !IsSpace(s[0]) && !IsSpace(s[|s| - 1]) ==> r == s
  {
    var a := LeadFrom(s, 0);
    if a == |s| then ""
    else
      var b := TrailTo(s, |s|);
      assert a < b;
      s[a..b]
  }

  /** Python's `s[:n]` for a non-negative `n`: the first `n` characters, or all of `s` when it is shorter. */
  function Take(s: string, n: nat): (r: string)
    ensures |r| == if n <= |s| then n else |s|
    ensures r <= s
  {
    if n <= |s| then s[..n] else s
  }

  /** Python's `sep.join(parts)`. */
  function JoinWith(sep: string, parts: seq<string>): (r: string)
    decreases |parts|
  {
    if parts == [] then ""
    else if |parts| == 1 then parts[0]
    else JoinWith(sep, parts[..|parts| - 1]) + sep + parts[|parts| - 1]
  }

  /** Python's `''.join(parts)`. */
  function Concat(parts: seq<string>): (r: string)
    decreases |parts|
  {
    if parts == [] then "" else Concat(parts[..|parts| - 1]) + parts[|parts| - 1]
  }

  /** The pieces of `s` separated by `sep` (Python's `s.split(sep)` for a one-character separator). */
  function SplitOn(sep: char, s: string): (r: seq<string>)
    decreases |s|
    ensures |r| >= 1
  {
    if s == [] then [""]
    else if s[|s| - 1] == sep then SplitOn(sep, s[..|s| - 1]) + [""]
    else
      var init := SplitOn(sep, s[..|s| - 1]);
      init[..|init| - 1] + [init[|init| - 1] + [s[|s| - 1]]]
  }

  lemma {:induction false} SplitAppendPlain(sep: char, s: string, t: string)
    requires sep !in t
    ensures var a := SplitOn(sep, s); SplitOn(sep, s + t) == a[..|a| - 1] + [a[|a| - 1] + t]
    decreases |t|
  {
    if t == [] {
      SplitAppendNothing(sep, s);
    } else {
      PlainInit(sep, t);
      SplitAppendPlain(sep, s, t[..|t| - 1]);
      SplitSnocStep(sep, s, t, SplitOn(sep, s));
    }
  }

  lemma SplitSnocStep(sep: char, s: string, t: string, a: seq<string>)
    requires t != [] && t[|t| - 1] != sep
    requires a == SplitOn(sep, s) && SplitOn(sep, s + t[..|t| - 1]) == a[..|a| - 1] + [a[|a| - 1] + t[..|t| - 1]]
    ensures SplitOn(sep, s + t) == a[..|a| - 1] + [a[|a| - 1] + t]
  {
    var t', c := t[..|t| - 1], t[|t| - 1];
    SnocSplits(s, t);
    SplitOnSnoc(sep, s + t', c);
    SnocLast(a[..|a| - 1], a[|a| - 1] + t', c);
    SnocSplits(a[|a| - 1], t);
  }

  /** Splitting `u + [c]` is splitting `u`, then either a new empty piece or `c` added to the last one. */
  lemma SplitOnSnoc(sep: char, u: string, c: char)
    ensures c == sep ==> SplitOn(sep, u + [c]) == SplitOn(sep, u) + [""]
    ensures c != sep ==> var init := SplitOn(sep, u); SplitOn(sep, u + [c]) == init[..|init| - 1] + [init[|init| - 1] + [c]]
  {
    assert (u + [c])[..|u + [c]| - 1] == u;
  }

  lemma SnocLast<T>(p: seq<seq<T>>, x: seq<T>, c: T)
    ensures var init := p + [x]; init[..|init| - 1] + [init[|init| - 1] + [c]] == p + [x + [c]]
  {
    var init := p + [x];
    assert init[..|init| - 1] == p;
  }

  lemma SplitAppendNothing(sep: char, s: string)
    ensures var a := SplitOn(sep, s); SplitOn(sep, s + []) == a[..|a| - 1] + [a[|a| - 1] + []]
  {
    var a := SplitOn(sep, s);
    assert s + [] == s;
    assert a[|a| - 1] + [] == a[|a| - 1];
    assert a[..|a| - 1] + [a[|a| - 1]] == a;
  }

  lemma PlainInit(sep: char, t: string)
    requires t != [] && sep !in t
    ensures t[|t| - 1] != sep && sep !in t[..|t| - 1]
  {
    assert t[|t| - 1] in t;
    assert t == t[..|t| - 1] + [t[|t| - 1]];
  }

  lemma AppendAssoc<T>(a: seq<T>, b: seq<T>, c: seq<T>)
    ensures (a + b) + c == a + (b + c)
  {
  }

  lemma ConsAppend<T>(x: T, a: seq<T>, b: seq<T>, c: seq<T>)
    requires a + b == c
    ensures ([x] + a) + b == [x] + c
  {
  }

  lemma HeadTailSplits<T>(a: seq<T>, b: seq<T>)
    requires b != []
    ensures a + [b[0]] + b[1..] == a + b
  {
  }

  lemma SnocSplits<T>(a: seq<T>, b: seq<T>)
    requires b != []
    ensures a + b[..|b| - 1] + [b[|b| - 1]] == a + b
  {
    SnocParts(b);
  }

  lemma SnocParts<T>(b: seq<T>)
    requires b != []
    ensures b[..|b| - 1] + [b[|b| - 1]] == b
  {
  }

  /**
   * Joining with a one-character separator and splitting on it again gives
   * back the parts, provided no part contains the separator.
   */
  lemma {:induction false} SplitJoin(sep: char, parts: seq<string>)
    requires |parts| >= 1
    requires forall i :: 0 <= i < |parts| ==> sep !in parts[i]
    ensures SplitOn(sep, JoinWith([sep], parts)) == parts
    decreases |parts|
  {
    if |parts| == 1 {
      SplitAppendPlain(sep, "", parts[0]);
      assert "" + parts[0] == parts[0];
    } else {
      SplitJoin(sep, parts[..|parts| - 1]);
      SplitJoinStep(sep, parts);
    }
  }

  lemma SplitJoinStep(sep: char, parts: seq<string>)
    requires |parts| >= 2 && sep !in parts[|parts| - 1]
    requires SplitOn(sep, JoinWith([sep], parts[..|parts| - 1])) == parts[..|parts| - 1]
    ensures SplitOn(sep, JoinWith([sep], parts)) == parts
  {
    var init, last := parts[..|parts| - 1], parts[|parts| - 1];
    var j := JoinWith([sep], init);
    assert JoinWith([sep], parts) == j + [sep] + last;
    SplitOnSnoc(sep, j, sep);
    SplitAppendPlain(sep, j + [sep], last);
    LastExtended(init, last);
    SnocParts(parts);
  }

  lemma LastExtended(init: seq<string>, last: string)
    ensures var sp := init + [""]; sp[..|sp| - 1] + [sp[|sp| - 1] + last] == init + [last]
  {
    var sp := init + [""];
    assert sp[..|sp| - 1] == init;
    assert sp[|sp| - 1] + last == last;
  }
}

=== FILE: wrappers.dfy ===
/** Option and Result, the two failure-carrying shapes the model uses. */
module Wrappers {

  datatype Option<+T> = None | Some(value: T)

  datatype Result<+R, +E> = Success(value: R) | Failure(error: E)
}
